=== FILE: README.md ===
# Ivy report plugin: a Dafny model

This project models the core of the Jenkins Ivy report plugin. After an
Ivy build, the plugin finds Ivy's resolution cache on the agent and copies
the per-configuration resolve reports (`<resolveId>-<conf>.xml`) into the
build's `ivyreport` directory. It turns them into HTML pages and Graphviz
graphs with two XSLT passes, and renders each graph to SVG with the `dot`
executable.

The model is written in pure functions over immutable data:

- `JavaText` holds the Java and commons-lang string operations the plugin
  relies on: `split`, `replace`, `trim`, `isNotBlank` and `fixEmptyAndTrim`.
- `Paths` models files as `/`-separated paths.
- `Files` holds the file system as a map from path to content, and the
  exceptions that matter to control flow.
- `DotDescriptor` models the global configuration of the `dot` executable.
- `Generator` and `GeneratorFacts` model `IvyReportGenerator`: the passes,
  the `dot` stage and the whole pipeline. They include a reference
  definition of the files a successful run leaves.
- `CacheRoot` models `GetResolutionCacheRootCallable`. It validates the
  settings and property files, then makes an ordered sequence of calls on
  Ivy's settings object.
- `Publisher` models `IvyReportPublisher.perform`: the skip rule, the
  configuration list, the copy of the reports, generation, and what is
  caught.
- `EnvContainer` models `EnvVarsVariableContainer`. Environments live in a
  heap of references, so that clone independence means something.

Collaborators the plugin does not define are given as parameters: the
XSLT engine, the `dot` process, `mkdirs`, file existence on the agent, and
Ivy's settings loader.

Behaviours of the code that the model makes explicit:

- A configuration string made only of spaces and commas, with at least
  one comma, yields no configurations. The generator then fails on the
  missing first page, and that exception is not an `IOException`, so it
  escapes `perform` (`Publisher.PerformOnlyCommas`). Without a comma,
  such a string yields one empty configuration name, as Java's `split`
  does (`Publisher.OnlySpacesGiveEmptyConf`).
- Only `IOException` is caught by `perform`. A `BuildException` from a
  stylesheet that does not compile or from a failed transform escapes.
- The SVG name is the Graphviz file name with every `.dot` replaced, so a
  resolve id containing `.dot` is renamed as well
  (`GeneratorFacts.SvgFileRenamesResolveId`).
- Property-file entries are trimmed and resolved in the workspace, blank
  ones included. A blank entry names the workspace directory, which exists,
  so it is passed to Ivy as a property file
  (`CacheRoot.PropertyEntriesResolved`).

## Model

| member | source | states |
|---|---|---|
| JavaText.RemoveSpaces | src/main/java/jenkins/plugins/ivyreport/IvyReportPublisher.java:126 | the configuration string with every space removed: no space is left, and every other character occurs exactly as often as in the input |
| JavaText.RemoveSpacesAppend | src/main/java/jenkins/plugins/ivyreport/IvyReportPublisher.java:126 | removing spaces from a concatenation is the concatenation of the pieces with spaces removed, so the kept characters stay in order |
| JavaText.Split | src/main/java/jenkins/plugins/ivyreport/IvyReportPublisher.java:126 | `split(",")`: no field contains a comma, every character comes from the input, and when a comma occurs the last field is not empty (trailing empty fields are dropped) |
| JavaText.SplitOnlySeparators | src/main/java/jenkins/plugins/ivyreport/IvyReportPublisher.java:126 | a non-empty string made only of commas splits into no fields at all |
| JavaText.Trim | src/main/java/jenkins/plugins/ivyreport/GetResolutionCacheRootCallable.java:108 | `trim()`: the result is empty exactly when every character is at most U+0020, otherwise it starts and ends with a kept character; all characters come from the input |
| JavaText.TrimIsInfix | src/main/java/jenkins/plugins/ivyreport/GetResolutionCacheRootCallable.java:108 | `trim()` returns a contiguous part of the input, and everything it cuts off before and after is at most U+0020 |
| JavaText.FixEmptyAndTrim | src/main/java/jenkins/plugins/ivyreport/IvyReportPublisher.java:191 | `fixEmptyAndTrim`: null exactly for null or all-blank input, otherwise the trimmed input, which is non-empty |
| Paths.NameOfJoin | src/main/java/jenkins/plugins/ivyreport/IvyReportPublisher.java:158 | `new File(dir, name).getName()` is `name` and the parent is `dir` when `name` has no separator |
| DotDescriptor.DefaultDotExe | src/main/java/jenkins/plugins/ivyreport/IvyReportPublisher.java:222-224 | `dot.exe` exactly on Windows, `dot` otherwise |
| DotDescriptor.Configure | src/main/java/jenkins/plugins/ivyreport/IvyReportPublisher.java:189-195 | the stored executable is null exactly when the submitted value is blank, and otherwise its trimmed form |
| DotDescriptor.DotExeOrDefault | src/main/java/jenkins/plugins/ivyreport/IvyReportPublisher.java:214-220 | a null or blank configured executable gives the platform default; any other value is used as stored |
| DotDescriptor.ConfiguredExecutable | src/main/java/jenkins/plugins/ivyreport/IvyReportPublisher.java:189-224 | after any `configure`, the executable used is the trimmed submission or the default, and is never blank |
| Generator.ConfsAsCommaSeparated | src/main/java/jenkins/plugins/ivyreport/IvyReportGenerator.java:90-99 | the joined string starts with the first configuration and ends with the last, and is that configuration alone when there is one (the full round trip is `Publisher.FieldsOfJoined`) |
| Generator.ReportFile | src/main/java/jenkins/plugins/ivyreport/IvyReportGenerator.java:101-103 | no contract of its own: `Generator.ReportFileKind` states that it ends in `xml`, and `Generator.ReportIsNeverOutput` that no pass output is a report |
| Generator.OutFilesNamed | src/main/java/jenkins/plugins/ivyreport/IvyReportGenerator.java:190-196 | every file a pass lists ends in the pass's extension, and two listed files share a path exactly when their configurations are equal |
| Generator.StyleEach | src/main/java/jenkins/plugins/ivyreport/IvyReportGenerator.java:192-236 | when the loop succeeds every configuration had a report that transformed with the parameters `confs` = the joined list and `extension` = `html` (for both passes); when it fails the exception is a `BuildException` or the `IOException` of a missing report |
| Generator.GenStyled | src/main/java/jenkins/plugins/ivyreport/IvyReportGenerator.java:173-249 | on success returns one output per configuration, in order, each existing in the file system |
| Generator.CopyStylesheet | src/main/java/jenkins/plugins/ivyreport/IvyReportGenerator.java:125-137 | the stylesheet is written into the resolution cache root with the resource content, and no other file changes |
| Generator.DotExe | src/main/java/jenkins/plugins/ivyreport/IvyReportGenerator.java:140-146 | with no descriptor, or a descriptor whose executable is null or blank, the platform default; a descriptor holding a non-blank executable gives exactly that value; the result is never blank |
| Generator.RunDot | src/main/java/jenkins/plugins/ivyreport/IvyReportGenerator.java:139-171 | success means the input existed, `dot` exited and the SVG file holds its output and nothing else changed; failures are `IOException` or `InterruptedException`, and the SVG file is created even then; no existing file is removed |
| Generator.GenSvgFiles | src/main/java/jenkins/plugins/ivyreport/IvyReportGenerator.java:117-123 | on success one SVG file per Graphviz file, in order; failures are only `IOException` or `InterruptedException`; no existing file is removed, whatever the outcome |
| Generator.GenHtmlReport | src/main/java/jenkins/plugins/ivyreport/IvyReportGenerator.java:105-111 | on success the entry page is the first configuration's page and both it and the CSS asset exist; no configurations means an exception |
| Generator.GenDotFiles | src/main/java/jenkins/plugins/ivyreport/IvyReportGenerator.java:113-115 | on success one `.dot` file per configuration, index-aligned |
| Generator.GenerateReports | src/main/java/jenkins/plugins/ivyreport/IvyReportGenerator.java:76-82 | on success returns the first configuration's HTML page; with no configurations it throws |
| Generator.OutFileKind | src/main/java/jenkins/plugins/ivyreport/IvyReportGenerator.java:194-195 | output files end in `.<ext>`: pages in `tml`, Graphviz files in `dot` |
| Generator.HtmlIsNotCss | src/main/java/jenkins/plugins/ivyreport/IvyReportGenerator.java:106-107 | no page is the CSS asset |
| Generator.ReportIsNeverOutput | src/main/java/jenkins/plugins/ivyreport/IvyReportGenerator.java:193-195 | no report file is ever an output file of a pass |
| Generator.OutFileInjective | src/main/java/jenkins/plugins/ivyreport/IvyReportGenerator.java:194-195 | different configurations write different output files |
| Generator.StyledOutputsKeys | src/main/java/jenkins/plugins/ivyreport/IvyReportGenerator.java:192-236 | the files a pass writes are exactly the outputs of its configurations |
| Generator.StyledOutputsValue | src/main/java/jenkins/plugins/ivyreport/IvyReportGenerator.java:192-236 | each configuration's output holds the stylesheet applied to that configuration's report |
| Generator.StyledOutputsFrame | src/main/java/jenkins/plugins/ivyreport/IvyReportGenerator.java:192-236 | writing a non-report file does not change what a pass writes |
| Generator.StyleEachWrites | src/main/java/jenkins/plugins/ivyreport/IvyReportGenerator.java:192-236 | a successful pass leaves the previous files overwritten by exactly its outputs |
| GeneratorFacts.SvgNameCharacters | src/main/java/jenkins/plugins/ivyreport/IvyReportGenerator.java:148 | `replace(".dot", ".svg")` keeps the length and only ever puts `s`, `v`, `g` in place of characters |
| GeneratorFacts.SvgNameHasNoDot | src/main/java/jenkins/plugins/ivyreport/IvyReportGenerator.java:148 | no `.dot` is left anywhere in the renamed name |
| GeneratorFacts.SvgNameOfDotEnding | src/main/java/jenkins/plugins/ivyreport/IvyReportGenerator.java:148 | a trailing `.dot` always becomes `.svg` |
| GeneratorFacts.SvgNameWithoutDot | src/main/java/jenkins/plugins/ivyreport/IvyReportGenerator.java:148 | a name without `.dot` is left unchanged |
| GeneratorFacts.SvgNameOfFirstDot | src/main/java/jenkins/plugins/ivyreport/IvyReportGenerator.java:148 | the first `.dot` anywhere in a name becomes `.svg`, the text before it is kept and the rest is renamed in turn, so every occurrence is replaced |
| GeneratorFacts.SvgFileSameDirectory | src/main/java/jenkins/plugins/ivyreport/IvyReportGenerator.java:148 | the SVG file is in the Graphviz file's directory, under the renamed name |
| Generator.SvgFile | src/main/java/jenkins/plugins/ivyreport/IvyReportGenerator.java:148 | no contract of its own: `GeneratorFacts.SvgFileSameDirectory`, `GeneratorFacts.SvgFileEnding` and `GeneratorFacts.SvgDotOfName` state where the SVG file goes and how it is named |
| GeneratorFacts.SvgFileEnding | src/main/java/jenkins/plugins/ivyreport/IvyReportGenerator.java:148 | a Graphviz file ending in `.dot` gives an SVG file ending in `.svg` |
| GeneratorFacts.SvgFileOfConfiguration | src/main/java/jenkins/plugins/ivyreport/IvyReportGenerator.java:148 | for ids and configurations without `/` or `.dot`, the SVG is `<resolveId>-<conf>.svg` in the target directory |
| GeneratorFacts.SvgDotOfName | src/main/java/jenkins/plugins/ivyreport/IvyReportGenerator.java:148 | the SVG of a configuration is the renamed base name plus `.svg` |
| GeneratorFacts.SvgFileRenamesResolveId | src/main/java/jenkins/plugins/ivyreport/IvyReportGenerator.java:148 | with resolve id `a.dot` the SVG of `x` is `a.svg-x.svg`, not `a.dot-x.svg` |
| GeneratorFacts.RenderedOutputsKeys | src/main/java/jenkins/plugins/ivyreport/IvyReportGenerator.java:117-123 | the `dot` stage writes exactly the SVG files of its inputs |
| GeneratorFacts.RenderedOutputsFrame | src/main/java/jenkins/plugins/ivyreport/IvyReportGenerator.java:117-123 | writing a file that is not a `dot` input does not change the SVG contents |
| GeneratorFacts.GenSvgFilesWrites | src/main/java/jenkins/plugins/ivyreport/IvyReportGenerator.java:117-123 | a successful `dot` stage overwrites exactly the SVG files with `dot`'s output for each input, and leaves the Graphviz files untouched |
| GeneratorFacts.DotFilesKeptWhenDotFails | src/main/java/jenkins/plugins/ivyreport/IvyReportGenerator.java:76-82 | when a `dot` run fails the run throws and leaves the files as the `dot` stage left them, and every Graphviz file written is still present |
| GeneratorFacts.GenHtmlReportWrites | src/main/java/jenkins/plugins/ivyreport/IvyReportGenerator.java:105-111 | a successful HTML stage writes the stylesheet, then the pages, then the CSS asset |
| GeneratorFacts.GenDotFilesWrites | src/main/java/jenkins/plugins/ivyreport/IvyReportGenerator.java:113-115 | a successful Graphviz stage writes the stylesheet, then the `.dot` files |
| GeneratorFacts.GenerateReportsStages | src/main/java/jenkins/plugins/ivyreport/IvyReportGenerator.java:76-88 | a successful run leaves the files of the reference definition `AfterRun`: every stage's writes in order, then the Graphviz files removed |
| GeneratorFacts.AfterRunKeys | src/main/java/jenkins/plugins/ivyreport/IvyReportGenerator.java:76-88 | after the stages, the files are the previous ones less the Graphviz files, plus the stylesheets and CSS asset, the pages and the SVG files |
| GeneratorFacts.AfterRunContents | src/main/java/jenkins/plugins/ivyreport/IvyReportGenerator.java:76-88 | after the stages, each page holds its report transformed, each asset its resource, and untouched files their old content |
| GeneratorFacts.GraphFilesApart | src/main/java/jenkins/plugins/ivyreport/IvyReportGenerator.java:106-134 | no stylesheet, asset, page or SVG file is a Graphviz file, so deleting the Graphviz files removes nothing else |
| GeneratorFacts.AssetsApart | src/main/java/jenkins/plugins/ivyreport/IvyReportGenerator.java:107-134 | the two stylesheets and the CSS asset are three different files, none of them an SVG file |
| GeneratorFacts.GenerateReportsFiles | src/main/java/jenkins/plugins/ivyreport/IvyReportGenerator.java:76-88 | after a successful run exactly the previous files less the Graphviz files, plus stylesheets, CSS, pages and SVG files exist |
| GeneratorFacts.GenerateReportsContents | src/main/java/jenkins/plugins/ivyreport/IvyReportGenerator.java:76-88 | after a successful run each page holds the HTML stylesheet applied to its report as it was before the run; the assets hold their resources; other files are unchanged |
| GeneratorFacts.NoConfigurationsFail | src/main/java/jenkins/plugins/ivyreport/IvyReportGenerator.java:105-111 | with no configurations the run throws, and the exception is a `BuildException` or the out-of-bounds access to the first page, never an `IOException` |
| CacheRoot.SettingsLocation | src/main/java/jenkins/plugins/ivyreport/GetResolutionCacheRootCallable.java:96-97 | null exactly when no settings file is configured; otherwise the file in the workspace |
| CacheRoot.Validate | src/main/java/jenkins/plugins/ivyreport/GetResolutionCacheRootCallable.java:94-116 | no contract of its own: `CacheRoot.MissingSettingsAborts`, `CacheRoot.FirstMissingPropertyAborts` and `CacheRoot.AbortsIffMissing` state when it aborts and with which file |
| CacheRoot.PropertyFiles | src/main/java/jenkins/plugins/ivyreport/GetResolutionCacheRootCallable.java:105-108 | a null or blank property-file list gives no property files |
| CacheRoot.PropertyEntriesResolved | src/main/java/jenkins/plugins/ivyreport/GetResolutionCacheRootCallable.java:106-108 | every comma-separated entry becomes one file: the trimmed entry in the workspace, so a blank entry gives `<workspace>/` |
| CacheRoot.FirstMissing | src/main/java/jenkins/plugins/ivyreport/GetResolutionCacheRootCallable.java:107-113 | the index of the first missing property file: all before it exist |
| CacheRoot.MissingSettingsAborts | src/main/java/jenkins/plugins/ivyreport/GetResolutionCacheRootCallable.java:99-103 | a configured but missing settings file aborts after checking only that file, and `call()` throws for it |
| CacheRoot.FirstMissingPropertyAborts | src/main/java/jenkins/plugins/ivyreport/GetResolutionCacheRootCallable.java:105-116 | the first missing property file aborts the lookup and is the one reported |
| CacheRoot.AbortsIffMissing | src/main/java/jenkins/plugins/ivyreport/GetResolutionCacheRootCallable.java:94-116 | the lookup aborts exactly when the settings file or some listed property file is missing |
| CacheRoot.LoadAll | src/main/java/jenkins/plugins/ivyreport/GetResolutionCacheRootCallable.java:119-121 | one property load per property file, in order |
| CacheRoot.SettingsCalls | src/main/java/jenkins/plugins/ivyreport/GetResolutionCacheRootCallable.java:117-130 | no contract of its own: `CacheRoot.CallsOrder` and `CacheRoot.CallsSetBranch` state the order of the calls and when the branch is set |
| CacheRoot.GetIvySettings | src/main/java/jenkins/plugins/ivyreport/GetResolutionCacheRootCallable.java:94-137 | no contract of its own: `CacheRoot.SettingsTrace`, `CacheRoot.LoadOrder`, `CacheRoot.BranchOnlyWhenConfigured` and `CacheRoot.LoadFailureGivesNull` state its outcomes |
| CacheRoot.Call | src/main/java/jenkins/plugins/ivyreport/GetResolutionCacheRootCallable.java:75-92 | no contract of its own: `CacheRoot.CallOutcomes` states exactly when it throws an `AbortException`, lets a lookup exception escape, returns null or returns the cache root |
| CacheRoot.Execute | src/main/java/jenkins/plugins/ivyreport/GetResolutionCacheRootCallable.java:117-136 | the calls run in order; on failure the trace is a prefix of the calls and the failing call is the next one |
| CacheRoot.CallsOrder | src/main/java/jenkins/plugins/ivyreport/GetResolutionCacheRootCallable.java:117-130 | settings are created first, all property files are loaded before the settings are loaded, the settings file is loaded when one is given and the defaults otherwise |
| CacheRoot.CallsSetBranch | src/main/java/jenkins/plugins/ivyreport/GetResolutionCacheRootCallable.java:127-129 | a default branch is set exactly when one is configured, and it is that branch |
| CacheRoot.SettingsTrace | src/main/java/jenkins/plugins/ivyreport/GetResolutionCacheRootCallable.java:117-130 | loaded settings saw exactly the calls for the validated locations |
| CacheRoot.LoadOrder | src/main/java/jenkins/plugins/ivyreport/GetResolutionCacheRootCallable.java:117-130 | the loaded settings' history has property loads first, then the settings load |
| CacheRoot.BranchOnlyWhenConfigured | src/main/java/jenkins/plugins/ivyreport/GetResolutionCacheRootCallable.java:127-129 | loaded settings have a branch set exactly when one is configured |
| CacheRoot.LoadFailureGivesNull | src/main/java/jenkins/plugins/ivyreport/GetResolutionCacheRootCallable.java:131-136 | a failing call on the settings is swallowed and `call()` returns null |
| CacheRoot.CallOutcomes | src/main/java/jenkins/plugins/ivyreport/GetResolutionCacheRootCallable.java:75-92 | `call()` throws an `AbortException` exactly when validation aborts; it returns null exactly when a call on the settings failed or the loaded settings' cache root is null; an exception escapes exactly when the settings loaded and their cache-root lookup throws; otherwise it returns the loaded settings' cache root |
| Publisher.SkippedResults | src/main/java/jenkins/plugins/ivyreport/IvyReportPublisher.java:90 | a build is skipped exactly when it failed, was not built or was aborted |
| Publisher.GetConfs | src/main/java/jenkins/plugins/ivyreport/IvyReportPublisher.java:125-127 | configurations contain no space and no comma, and their characters come from the configured string |
| Publisher.FieldsOfJoined | src/main/java/jenkins/plugins/ivyreport/IvyReportGenerator.java:90-99 | splitting the comma-joined configurations gives them back when none contains a comma |
| Publisher.GetConfsOfJoined | src/main/java/jenkins/plugins/ivyreport/IvyReportPublisher.java:125-127 | `getConfs` of the generator's comma-joined form returns the configurations, for configurations free of spaces and commas whose last is non-empty |
| Publisher.GetConfsIgnoresSpace | src/main/java/jenkins/plugins/ivyreport/IvyReportPublisher.java:125-127 | inserting a space anywhere in the configuration string does not change the configurations |
| Publisher.GetConfsOfSpacedJoin | src/main/java/jenkins/plugins/ivyreport/IvyReportPublisher.java:125-127 | a string that is the comma-joined configurations once its spaces are removed (`"a, b"`) yields exactly those configurations, for configurations without spaces or commas whose last one is non-empty |
| Publisher.OnlyCommasGiveNoConfs | src/main/java/jenkins/plugins/ivyreport/IvyReportPublisher.java:125-127 | a configuration string of spaces and at least one comma yields no configurations |
| Publisher.OnlySpacesGiveEmptyConf | src/main/java/jenkins/plugins/ivyreport/IvyReportPublisher.java:125-127 | a configuration string of spaces only, the empty string included, yields exactly one configuration, the empty name |
| Publisher.CopyReports | src/main/java/jenkins/plugins/ivyreport/IvyReportPublisher.java:148-160 | the copy never removes a file or directory, and can only fail with the `IOException` of one configuration's report |
| Publisher.ReportInCache | src/main/java/jenkins/plugins/ivyreport/IvyReportPublisher.java:129-133 | no contract of its own: `Publisher.CopyTargets` and `Publisher.CopyReportsFails` state how the cached reports relate to their copies |
| Publisher.CopyTarget | src/main/java/jenkins/plugins/ivyreport/IvyReportPublisher.java:158 | no contract of its own: `Publisher.CopyTargets` states that copies never land on cached reports and are pairwise distinct, and `Publisher.CopyIsGeneratorInput` that each is the report the generator reads |
| Publisher.CopyTargets | src/main/java/jenkins/plugins/ivyreport/IvyReportPublisher.java:129-133 | with the cache apart from the target directory, no copy lands on a cached report and different configurations get different copies |
| Publisher.CopyReportsSucceeds | src/main/java/jenkins/plugins/ivyreport/IvyReportPublisher.java:148-160 | the copy completes normally exactly when every configuration's report exists in the cache |
| Publisher.CopyReportsNamesFirstMissing | src/main/java/jenkins/plugins/ivyreport/IvyReportPublisher.java:148-160 | a failed copy throws an I/O error naming a missing report, and every report before it exists |
| Publisher.CopyReportsFails | src/main/java/jenkins/plugins/ivyreport/IvyReportPublisher.java:148-160 | the copy succeeds exactly when every report exists; otherwise it names the first missing report |
| Publisher.CopyReportsStopsAtMissing | src/main/java/jenkins/plugins/ivyreport/IvyReportPublisher.java:148-160 | at the first missing report the copy throws for it and leaves the files exactly as copying only the earlier configurations would: no later configuration is copied |
| Publisher.CopyReportsFrame | src/main/java/jenkins/plugins/ivyreport/IvyReportPublisher.java:148-160 | files other than the copy targets keep their presence and content |
| Publisher.CopyReportsCopies | src/main/java/jenkins/plugins/ivyreport/IvyReportPublisher.java:148-160 | after a successful copy each configuration's copy holds its cached report's content |
| Publisher.CopyIsGeneratorInput | src/main/java/jenkins/plugins/ivyreport/IvyReportPublisher.java:105-112 | the copy of a report is exactly the report file the generator reads, since the build's report directory is its cache root |
| Publisher.RootOf | src/main/java/jenkins/plugins/ivyreport/IvyReportPublisher.java:135-146 | the lookup gives a root only when it returned a non-null one; anything thrown becomes null |
| Publisher.Caught | src/main/java/jenkins/plugins/ivyreport/IvyReportPublisher.java:118-122 | an `IOException` becomes a normal `true` return with no action; any other exception escapes unchanged |
| Publisher.Perform | src/main/java/jenkins/plugins/ivyreport/IvyReportPublisher.java:88-123 | no contract of its own: the `Publisher.Perform…` lemmas below state its stages, outcome, action and effect on the files |
| Publisher.PerformSkips | src/main/java/jenkins/plugins/ivyreport/IvyReportPublisher.java:90-95 | a build worse than unstable is left untouched with `true`, and only such a build does nothing |
| Publisher.PerformWithoutRoot | src/main/java/jenkins/plugins/ivyreport/IvyReportPublisher.java:99-103 | without a cache root, `perform` returns `true` having copied and generated nothing |
| Publisher.PerformStages | src/main/java/jenkins/plugins/ivyreport/IvyReportPublisher.java:88-123 | the stages happen in order, and the copy happens exactly when the build is not skipped and a root was found |
| Publisher.PerformOutcome | src/main/java/jenkins/plugins/ivyreport/IvyReportPublisher.java:88-123 | `perform` never returns `false` and never lets an `IOException` escape; what escapes comes from the generator |
| Publisher.PerformActionIsFirstPage | src/main/java/jenkins/plugins/ivyreport/IvyReportPublisher.java:112-115 | a build action is added exactly when generation succeeded, and it names the first configuration's HTML page |
| Publisher.PerformAction | src/main/java/jenkins/plugins/ivyreport/IvyReportPublisher.java:112-115 | for names without `/`, the action names `<resolveId>-<first conf>.html` |
| Publisher.PerformMissingReport | src/main/java/jenkins/plugins/ivyreport/IvyReportPublisher.java:108-122 | a missing resolve report stops the step before generation, returns `true` and adds no action |
| Publisher.PerformFeedsGenerator | src/main/java/jenkins/plugins/ivyreport/IvyReportPublisher.java:104-112 | with every report cached, the generator runs on a file system where each report it reads holds the cached content |
| Publisher.PerformOnlyCommas | src/main/java/jenkins/plugins/ivyreport/IvyReportPublisher.java:104-112 | a configuration string made only of spaces and commas, with at least one comma, fails the build with an exception that escapes `perform` |
| Publisher.PerformWhenSettingsMissing | src/main/java/jenkins/plugins/ivyreport/IvyReportPublisher.java:99-103 | composed with the lookup: a configured but missing settings file makes the lookup abort, so `perform` copies and generates nothing and returns `true` |
| EnvContainer.GetVariable | src/main/java/jenkins/plugins/ivyreport/EnvVarsVariableContainer.java:45-54 | no contract of its own: `EnvContainer.PrefixedIgnoresBase` and `EnvContainer.UnprefixedDelegates` state where each name is looked up |
| EnvContainer.PrefixedIgnoresBase | src/main/java/jenkins/plugins/ivyreport/EnvVarsVariableContainer.java:48-50 | a prefixed name is looked up without the prefix in the environment only; when it is absent the answer is null, whatever the base variables hold |
| EnvContainer.UnprefixedDelegates | src/main/java/jenkins/plugins/ivyreport/EnvVarsVariableContainer.java:50-52 | any other name gets the base container's answer, whatever the environment holds |
| EnvContainer.Clone | src/main/java/jenkins/plugins/ivyreport/EnvVarsVariableContainer.java:57-62 | the clone refers to a new environment holding a copy of the original's, keeps the other fields, and leaves every existing environment as it was |
| EnvContainer.CloneAgrees | src/main/java/jenkins/plugins/ivyreport/EnvVarsVariableContainer.java:57-62 | right after cloning, the clone and the original answer every name alike |
| EnvContainer.CloneIsolatesOriginal | src/main/java/jenkins/plugins/ivyreport/EnvVarsVariableContainer.java:60 | writing through the clone's environment does not change the original's answers |
| EnvContainer.CloneIsolatesClone | src/main/java/jenkins/plugins/ivyreport/EnvVarsVariableContainer.java:60 | writing through the original's environment does not change the clone's answers |
| EnvContainer.ShallowCloneShares | src/main/java/jenkins/plugins/ivyreport/EnvVarsVariableContainer.java:59 | without the copy at line 60, a write through the clone shows through the original |

## Left out

- Logging to the build listener, the messages of exceptions, and the UI classes (`IvyReportBuildAction`, `IvyReportProjectAction`, descriptor forms and validation) are not modelled; they do not affect the files or the outcome.
- The remote call to the agent is reduced to its outcome (`CacheRoot.CallOutcome`), and every `Throwable` from it becomes a null root. The agent and the master share one modelled file system.
- The contents of the XSLT stylesheets, the CSS resource and the `dot` output are opaque: the stylesheets are functions given in `Generator.Tools`, and `dot` is a function from command line and input to its outcome. The exit code of `dot` is never inspected, so it is not modelled.
- Ivy's `IvySettings` internals are not modelled: which call throws, and what the cache-root lookup on the loaded settings answers (a root, null, or an exception), are functions in `CacheRoot.Loader`. `IvyVariableContainerImpl` is not part of this model beyond its variable map and environment prefix.
- Failures of writes and copies themselves (disk full, permissions) are not modelled: a write always succeeds. `mkdirs` of the report directory at `perform` is assumed to succeed. The generator's `mkdirs` is a parameter.
- Path normalisation (`..`, repeated or trailing separators, absolute paths) is not modelled: paths are strings joined with `/`.
- A null configuration string (a `NullPointerException` in `getConfs`) and a null resolve id (which Java would concatenate into report names such as `null-<conf>.xml`) are not modelled: the fields are strings. The cast to `IvyModuleSetBuild` is assumed to succeed, as the descriptor only applies to Ivy projects.
- `EnvVars` is a plain map: its case-insensitive ordering of keys is not modelled.
- File contents are strings. Binary content and character encodings are not modelled.
- Publisher.CopyReportsFails: stated only when the cache root differs from the report directory and neither the resolve id nor a configuration contains `/`. Otherwise a copy can overwrite a report not yet read.
- Publisher.CopyReportsSucceeds: stated under the same separation as `CopyReportsFails`.
- Publisher.CopyReportsNamesFirstMissing: stated under the same separation as `CopyReportsFails`.
- Publisher.CopyReportsStopsAtMissing: stated under the same separation as `CopyReportsFails`.
- Publisher.CopyReportsCopies: stated under the same separation, and when every report exists.
- Publisher.PerformMissingReport: stated under the same separation as `CopyReportsFails`.
- Publisher.PerformFeedsGenerator: stated under the same separation as `CopyReportsFails`.
- Publisher.GetConfsOfJoined: stated for configurations without spaces or commas whose last one is non-empty; other lists do not survive the round trip.
- GeneratorFacts.SvgFileOfConfiguration: stated for names without `/` and `.dot`; other names are covered by `SvgFileSameDirectory`.
- Generator.ConfsAsCommaSeparated: its own contract states only the ends of the joined string; the full content is stated by the round trip `Publisher.FieldsOfJoined`.

=== FILE: dot_descriptor.dfy ===
/**
 The publisher's global descriptor as far as report generation sees it:
 the configured path of the Graphviz `dot` executable and the fallback
 when none is configured.
 */
module DotDescriptor {
  import opened JavaText

  /** The persisted descriptor state: the `dotExe` field, possibly null. */
  datatype Descriptor = Descriptor(dotExe: Nullable<string>)

  /** `getDefaultDotExe()`: `dot.exe` on Windows, `dot` elsewhere. */
  function DefaultDotExe(isWindows: bool): (r: string)
    ensures r == "dot.exe" || r == "dot"
    ensures r == "dot.exe" <==> isWindows
  {
    if isWindows then "dot.exe" else "dot"
  }

  /**
   `configure`: the submitted form value, trimmed, or null when it is
   empty after trimming.
   */
  function Configure(submitted: string): (d: Descriptor)
    ensures d.dotExe.Null? <==> forall i :: 0 <= i < |submitted| ==> IsTrimmable(submitted[i])
    ensures d.dotExe.Present? ==> d.dotExe.value == Trim(submitted)
  {
    Descriptor(FixEmptyAndTrim(Present(submitted)))
  }

  /**
   `getDotExeOrDefault()`: the configured value itself when it is not
   null or blank after trimming, and the platform default otherwise.
   */
  function DotExeOrDefault(d: Descriptor, isWindows: bool): (r: string)
    ensures d.dotExe.Null? ==> r == DefaultDotExe(isWindows)
    ensures d.dotExe.Present? && (forall i :: 0 <= i < |d.dotExe.value| ==> IsTrimmable(d.dotExe.value[i])) ==> r == DefaultDotExe(isWindows)
    ensures d.dotExe.Present? && (exists i :: 0 <= i < |d.dotExe.value| && !IsTrimmable(d.dotExe.value[i])) ==> r == d.dotExe.value
  {
    if FixEmptyAndTrim(d.dotExe).Null? then DefaultDotExe(isWindows) else d.dotExe.value
  }

  /**
   Whatever was submitted through `configure`, the executable used is
   never blank: it is the trimmed submission, or the platform default when
   that is empty.
   */
  lemma ConfiguredExecutable(submitted: string, isWindows: bool)
    ensures Trim(submitted) != "" ==> DotExeOrDefault(Configure(submitted), isWindows) == Trim(submitted)
    ensures Trim(submitted) == "" ==> DotExeOrDefault(Configure(submitted), isWindows) == DefaultDotExe(isWindows)
    ensures exists i :: 0 <= i < |DotExeOrDefault(Configure(submitted), isWindows)| && !IsTrimmable(DotExeOrDefault(Configure(submitted), isWindows)[i])
  {
    var r := DotExeOrDefault(Configure(submitted), isWindows);
    assert !IsTrimmable(r[0]);
  }
}

=== FILE: env_vars_container.dfy ===
/**
 `EnvVarsVariableContainer`: the Ivy variable container that answers
 environment variables from the build's `EnvVars` instead of the process
 environment.

 `EnvVars` is a mutable map shared by reference, so the model keeps the
 maps in a heap from references to maps; a container holds the reference
 of its environment. The base container `IvyVariableContainerImpl` is
 reduced to its own variable map and its environment prefix.
 */
module EnvContainer {
  import opened JavaText

  /** A reference to an `EnvVars` object. */
  type Ref = nat

  /** The `EnvVars` objects, and the next free reference. */
  datatype Heap = Heap(envs: map<Ref, map<string, string>>, next: Ref)
  {
    /** Every allocated reference is below `next`. */
    predicate Valid()
    {
      forall r :: r in envs ==> r < next
    }
  }

  /** The container: the base variables, the environment prefix (null when unset) and the `EnvVars` it reads. */
  datatype Container = Container(variables: map<string, string>, envPrefix: Nullable<string>, envVars: Ref)

  /** A map lookup as Java's `Map.get`: null when the key is absent. */
  function Get(m: map<string, string>, key: string): (r: Nullable<string>)
    ensures r.Present? <==> key in m
    ensures r.Present? ==> r.value == m[key]
  {
    if key in m then Present(m[key]) else Null
  }

  /** The prefix applies to `name`: a prefix is set and `name` starts with it. */
  predicate Prefixed(c: Container, name: string)
  {
    c.envPrefix.Present? && c.envPrefix.value <= name
  }

  /**
   `getVariable(name)`: a name carrying the environment prefix is looked
   up, without the prefix, in the environment only; any other name goes to
   the base container.
   */
  function GetVariable(h: Heap, c: Container, name: string): (r: Nullable<string>)
    requires c.envVars in h.envs
  {
    if Prefixed(c, name) then Get(h.envs[c.envVars], name[|c.envPrefix.value|..])
    else Get(c.variables, name)
  }

  /** `put` on an `EnvVars` object. */
  function Put(h: Heap, r: Ref, key: string, value: string): (h': Heap)
    requires r in h.envs
    ensures h'.envs.Keys == h.envs.Keys && h'.next == h.next
    ensures h'.envs[r] == h.envs[r][key := value]
    ensures forall o :: o in h.envs && o != r ==> h'.envs[o] == h.envs[o]
  {
    h.(envs := h.envs[r := h.envs[r][key := value]])
  }

  /**
   `clone()`: the base fields are copied, and the environment is copied
   into a new `EnvVars` object that the clone alone refers to.
   */
  function Clone(h: Heap, c: Container): (r: (Heap, Container))
    requires h.Valid() && c.envVars in h.envs
    ensures r.0.Valid()
    ensures r.1.envVars !in h.envs && r.1.envVars in r.0.envs
    ensures r.0.envs[r.1.envVars] == h.envs[c.envVars]
    ensures forall o :: o in h.envs ==> o in r.0.envs && r.0.envs[o] == h.envs[o]
    ensures r.1.variables == c.variables && r.1.envPrefix == c.envPrefix
  {
    var r := h.next;
    (Heap(h.envs[r := h.envs[c.envVars]], r + 1), c.(envVars := r))
  }

  /** `super.clone()` alone: a field-by-field copy that shares the `EnvVars` object. */
  function ShallowClone(h: Heap, c: Container): (Heap, Container)
  {
    (h, c)
  }

  // ----------------------------------------------------------------- facts

  /** A prefixed name is answered from the environment alone: the base variables are never consulted. */
  lemma PrefixedIgnoresBase(h: Heap, c: Container, name: string, base: map<string, string>)
    requires c.envVars in h.envs && Prefixed(c, name)
    ensures GetVariable(h, c, name) == Get(h.envs[c.envVars], name[|c.envPrefix.value|..])
    ensures GetVariable(h, c.(variables := base), name) == GetVariable(h, c, name)
    ensures name[|c.envPrefix.value|..] !in h.envs[c.envVars] ==> GetVariable(h, c, name).Null?
  {
  }

  /** Any other name is the base container's answer, whatever the environment holds. */
  lemma UnprefixedDelegates(h: Heap, c: Container, name: string, env: map<string, string>)
    requires c.envVars in h.envs && !Prefixed(c, name)
    ensures GetVariable(h, c, name) == Get(c.variables, name)
    ensures GetVariable(h.(envs := h.envs[c.envVars := env]), c, name) == GetVariable(h, c, name)
  {
  }

  /** Right after `clone()`, the clone answers every name as the original does, and the original is unaffected. */
  lemma CloneAgrees(h: Heap, c: Container, name: string)
    requires h.Valid() && c.envVars in h.envs
    ensures var (h', k) := Clone(h, c);
      GetVariable(h', k, name) == GetVariable(h, c, name) && GetVariable(h', c, name) == GetVariable(h, c, name)
  {
  }

  /** After `clone()`, writing to the clone's environment leaves the original's answers unchanged. */
  lemma CloneIsolatesOriginal(h: Heap, c: Container, key: string, value: string, name: string)
    requires h.Valid() && c.envVars in h.envs
    ensures var (h', k) := Clone(h, c);
      GetVariable(Put(h', k.envVars, key, value), c, name) == GetVariable(h, c, name)
  {
  }

  /** After `clone()`, writing to the original's environment leaves the clone's answers unchanged. */
  lemma CloneIsolatesClone(h: Heap, c: Container, key: string, value: string, name: string)
    requires h.Valid() && c.envVars in h.envs
    ensures var (h', k) := Clone(h, c);
      GetVariable(Put(h', c.envVars, key, value), k, name) == GetVariable(h', k, name)
  {
  }

  /**
   Without the copy of the environment, a write through the clone shows
   through the original: with prefix `env.` and an empty environment,
   putting `HOME` through the clone makes the original answer it for
   `env.HOME`.
   */
  lemma ShallowCloneShares()
    ensures var h := Heap(map[0 := map[]], 1);
      var c := Container(map[], Present("env."), 0);
      var (h', k) := ShallowClone(h, c);
      GetVariable(h, c, "env.HOME").Null?
      && GetVariable(Put(h', k.envVars, "HOME", "/home/a"), c, "env.HOME") == Present("/home/a")
  {
    var name := "env.HOME";
    assert "env." <= name;
    assert name[4..] == "HOME";
  }
}

=== FILE: files.dfy ===
/**
 The file systems the plugin reads and writes, as maps from path to
 content plus the set of existing directories, and the Java exceptions
 that can leave an operation. An operation that may fail returns a `Step`:
 how it ended together with the file system it left behind, because a
 failing operation may already have written some files.
 */
module Files {
  import opened Paths

  type Content = string

  datatype FileSystem = FileSystem(files: map<Path, Content>, dirs: set<Path>)
  {
    /** `File.exists()`: a file or a directory is there. */
    predicate Exists(p: Path)
    {
      p in files || p in dirs
    }

    /** Opening `p` for output and writing `c` to it, replacing what was there. */
    function Write(p: Path, c: Content): FileSystem
    {
      this.(files := files[p := c])
    }

    /** `File.delete()` of every path in `ps`, ignoring the ones that are absent. */
    function DeleteAll(ps: seq<Path>): FileSystem
    {
      this.(files := files - set p | p in ps)
    }
  }

  /** The exceptions that matter to the control flow. */
  datatype Exception =
    | IOException(path: Path)
    | BuildException(reason: string)
    | InterruptedException
    | ArrayIndexOutOfBoundsException

  datatype Outcome<+T> = Normal(value: T) | Thrown(exception: Exception)

  datatype Step<+T> = Step(outcome: Outcome<T>, fs: FileSystem)
}

=== FILE: java_text.dfy ===
/**
 The few operations on Java strings the plugin relies on: `String.split`
 with a one-character separator, `String.replace`, `String.trim`,
 commons-lang `StringUtils.isNotBlank` and Hudson's `Util.fixEmptyAndTrim`.
 Strings are sequences of characters; a Java reference that may be null is
 a `Nullable`.
 */
module JavaText {

  /** A Java reference that is either null or holds a value. */
  datatype Nullable<+T> = Null | Present(value: T)

  /** `pat` occurs somewhere in `s`. */
  predicate Occurs(s: string, pat: string)
    decreases |s|
  {
    pat <= s || (|s| > 0 && Occurs(s[1..], pat))
  }

  predicate EndsWith(s: string, suffix: string)
  {
    |suffix| <= |s| && s[|s| - |suffix|..] == suffix
  }

  /** Two strings whose last three characters differ are different. */
  lemma DifferentEndings(p: string, q: string, a: string, b: string)
    requires EndsWith(p, a) && EndsWith(q, b)
    requires |a| >= 3 && |b| >= 3 && a[|a| - 3..] != b[|b| - 3..]
    ensures p != q
  {
    assert p[|p| - 3..] == a[|a| - 3..];
    assert q[|q| - 3..] == b[|b| - 3..];
  }

  /** The last three characters of `s`, or all of it when it is shorter. */
  function LastThree(s: string): string
  {
    if |s| >= 3 then s[|s| - 3..] else s
  }

  /** An ending of at least three characters fixes the last three characters. */
  lemma LastThreeOfEnding(s: string, e: string)
    requires EndsWith(s, e) && |e| >= 3
    ensures LastThree(s) == e[|e| - 3..]
  {
    assert s[|s| - 3..] == s[|s| - |e|..][|e| - 3..];
  }

  lemma EndsWithAppend(a: string, b: string)
    ensures EndsWith(a + b, b)
  {
    assert (a + b)[|a + b| - |b|..] == b;
  }

  // ---------------------------------------------------------------- replace

  /**
   `s.replace(target, replacement)`: scanning from the left, every
   occurrence of `target` that does not overlap an earlier replaced one is
   replaced.
   */
  function Replace(s: string, target: string, replacement: string): string
    requires |target| > 0
    decreases |s|
  {
    if |s| == 0 then ""
    else if target <= s then replacement + Replace(s[|target|..], target, replacement)
    else [s[0]] + Replace(s[1..], target, replacement)
  }

  /** `s.replace(" ", "")`: the characters of `s` in order, spaces removed. */
  function RemoveSpaces(s: string): (r: string)
    ensures ' ' !in r
    ensures forall c :: c in r ==> c in s
    ensures forall c :: c in s && c != ' ' ==> c in r
    ensures multiset(r) == multiset(s)[' ' := 0]
  {
    RemovingSpaces(s);
    Replace(s, " ", "")
  }

  lemma {:induction false} RemovingSpaces(s: string)
    ensures ' ' !in Replace(s, " ", "")
    ensures forall c :: c in Replace(s, " ", "") ==> c in s
    ensures forall c :: c in s && c != ' ' ==> c in Replace(s, " ", "")
    ensures multiset(Replace(s, " ", "")) == multiset(s)[' ' := 0]
    decreases |s|
  {
    if |s| > 0 {
      RemovingSpaces(s[1..]);
      assert s == [s[0]] + s[1..];
      assert multiset(s) == multiset{s[0]} + multiset(s[1..]);
      if s[0] != ' ' {
        assert !(" " <= s);
        assert multiset(Replace(s, " ", "")) == multiset{s[0]} + multiset(Replace(s[1..], " ", ""));
      }
    }
  }

  /** A string without spaces is left as it is. */
  lemma {:induction false} RemoveSpacesKeeps(s: string)
    requires ' ' !in s
    ensures RemoveSpaces(s) == s
    decreases |s|
  {
    if |s| > 0 {
      assert s[0] in s;
      assert !(" " <= s);
      assert ' ' !in s[1..];
      RemoveSpacesKeeps(s[1..]);
      assert [s[0]] + s[1..] == s;
    }
  }

  /** Removing spaces works piece by piece, so the kept characters stay in their order. */
  lemma RemoveSpacesAppend(a: string, b: string)
    ensures RemoveSpaces(a + b) == RemoveSpaces(a) + RemoveSpaces(b)
  {
    RemovingSpacesAppend(a, b);
  }

  lemma {:induction false} RemovingSpacesAppend(a: string, b: string)
    ensures Replace(a + b, " ", "") == Replace(a, " ", "") + Replace(b, " ", "")
    decreases |a|
  {
    if |a| > 0 {
      RemovingSpacesAppend(a[1..], b);
      assert (a + b)[0] == a[0] && (a + b)[1..] == a[1..] + b;
      if a[0] == ' ' {
        assert " " <= a && " " <= a + b;
      } else {
        assert !(" " <= a) && !(" " <= a + b);
      }
    } else {
      assert a + b == b;
    }
  }

  // ------------------------------------------------------------------ split

  /**
   The fields of `s` between occurrences of `sep`, empty fields included:
   there is always one more field than there are separators.
   */
  function Fields(s: string, sep: char): (r: seq<string>)
    ensures |r| >= 1
    ensures forall i :: 0 <= i < |r| ==> sep !in r[i]
    ensures forall i, c :: 0 <= i < |r| && c in r[i] ==> c in s
    decreases |s|
  {
    if |s| == 0 then [""]
    else
      var rest := Fields(s[1..], sep);
      assert forall c :: c in s[1..] ==> c in s;
      if s[0] == sep then [""] + rest
      else [[s[0]] + rest[0]] + rest[1..]
  }

  /** `fields` with its trailing empty strings removed. */
  function DropTrailingEmpty(fields: seq<string>): (r: seq<string>)
    ensures r <= fields
    ensures |r| > 0 ==> r[|r| - 1] != ""
    ensures forall i :: |r| <= i < |fields| ==> fields[i] == ""
  {
    if |fields| > 0 && fields[|fields| - 1] == "" then DropTrailingEmpty(fields[..|fields| - 1])
    else fields
  }

  /** Fields that are all empty are all dropped. */
  lemma {:induction false} DropAllEmpty(fields: seq<string>)
    requires forall i :: 0 <= i < |fields| ==> fields[i] == ""
    ensures DropTrailingEmpty(fields) == []
    decreases |fields|
  {
    if |fields| > 0 {
      DropAllEmpty(fields[..|fields| - 1]);
    }
  }

  /**
   `s.split(sep)` for a separator that is not a regular-expression
   metacharacter. When `sep` does not occur the result is `s` alone, even
   when `s` is empty; otherwise the fields with trailing empty strings
   removed, so the result may be empty.
   */
  function Split(s: string, sep: char): (r: seq<string>)
    ensures forall i :: 0 <= i < |r| ==> sep !in r[i]
    ensures forall i, c :: 0 <= i < |r| && c in r[i] ==> c in s
    ensures sep in s && |r| > 0 ==> r[|r| - 1] != ""
  {
    if sep !in s then [s] else DropTrailingEmpty(Fields(s, sep))
  }

  /** A string made only of separators has only empty fields. */
  lemma {:induction false} FieldsOnlySeparators(s: string, sep: char)
    requires forall i :: 0 <= i < |s| ==> s[i] == sep
    ensures forall i :: 0 <= i < |Fields(s, sep)| ==> Fields(s, sep)[i] == ""
    decreases |s|
  {
    if |s| > 0 {
      FieldsOnlySeparators(s[1..], sep);
    }
  }

  /** A non-empty string made only of separators splits into nothing. */
  lemma SplitOnlySeparators(s: string, sep: char)
    requires |s| > 0 && forall i :: 0 <= i < |s| ==> s[i] == sep
    ensures Split(s, sep) == []
  {
    FieldsOnlySeparators(s, sep);
    DropAllEmpty(Fields(s, sep));
  }

  /** A string without the separator is its own single field. */
  lemma {:induction false} FieldsWithoutSeparator(s: string, sep: char)
    requires sep !in s
    ensures Fields(s, sep) == [s]
    decreases |s|
  {
    if |s| > 0 {
      FieldsWithoutSeparator(s[1..], sep);
      assert [s[0]] + s[1..] == s;
    }
  }

  /** A leading separator-free field followed by the separator splits off as the first field. */
  lemma {:induction false} FieldsAfterSeparator(a: string, sep: char, b: string)
    requires sep !in a
    ensures Fields(a + [sep] + b, sep) == [a] + Fields(b, sep)
    decreases |a|
  {
    var s := a + [sep] + b;
    if |a| == 0 {
      assert s[1..] == b;
    } else {
      assert s[1..] == a[1..] + [sep] + b;
      FieldsAfterSeparator(a[1..], sep, b);
      assert [a[0]] + a[1..] == a;
    }
  }

  // ------------------------------------------------------------------- trim

  /** A character `String.trim` removes: any code point up to U+0020. */
  predicate IsTrimmable(c: char)
  {
    c <= ' '
  }

  function TrimStart(s: string): (r: string)
    ensures |r| <= |s| && r == s[|s| - |r|..]
    ensures r == [] || !IsTrimmable(r[0])
    ensures forall i :: 0 <= i < |s| - |r| ==> IsTrimmable(s[i])
    decreases |s|
  {
    if |s| > 0 && IsTrimmable(s[0]) then TrimStart(s[1..]) else s
  }

  function TrimEnd(s: string): (r: string)
    ensures |r| <= |s| && r == s[..|r|]
    ensures r == [] || !IsTrimmable(r[|r| - 1])
    ensures forall i :: |r| <= i < |s| ==> IsTrimmable(s[i])
    decreases |s|
  {
    if |s| > 0 && IsTrimmable(s[|s| - 1]) then TrimEnd(s[..|s| - 1]) else s
  }

  /**
   Cutting characters up to U+0020 off the front of `s`, giving `t`, and
   then off the back of `t`, giving `r`, leaves `r` as the part of `s`
   between them, with only such characters outside it.
   */
  lemma TrimmedBetween(s: string, t: string, r: string)
    requires |t| <= |s| && t == s[|s| - |t|..] && |r| <= |t| && r == t[..|r|]
    requires forall k :: 0 <= k < |s| - |t| ==> IsTrimmable(s[k])
    requires forall k :: |r| <= k < |t| ==> IsTrimmable(t[k])
    ensures r == s[|s| - |t|..|s| - |t| + |r|]
    ensures forall k :: (0 <= k < |s| - |t| || |s| - |t| + |r| <= k < |s|) ==> IsTrimmable(s[k])
  {
    var i, j := |s| - |t|, |s| - |t| + |r|;
    forall k | j <= k < |s| ensures IsTrimmable(s[k]) {
      assert s[k] == s[i..][k - i] == t[k - i];
    }
  }

  /** The facts `trim()` promises, for `r` cut out of `s` as in `TrimmedBetween` and starting and ending with kept characters. */
  lemma TrimmedEnds(s: string, t: string, r: string)
    requires |t| <= |s| && t == s[|s| - |t|..] && |r| <= |t| && r == t[..|r|]
    requires forall k :: 0 <= k < |s| - |t| ==> IsTrimmable(s[k])
    requires forall k :: |r| <= k < |t| ==> IsTrimmable(t[k])
    requires t == [] || !IsTrimmable(t[0])
    requires r == [] || !IsTrimmable(r[|r| - 1])
    ensures r == [] || (!IsTrimmable(r[0]) && !IsTrimmable(r[|r| - 1]))
    ensures r == [] <==> forall i :: 0 <= i < |s| ==> IsTrimmable(s[i])
    ensures forall c :: c in r ==> c in s
  {
    TrimmedBetween(s, t, r);
    var i := |s| - |t|;
    if r != [] {
      assert r[0] == t[0] == s[i];
    }
    forall c | c in r ensures c in s {
      var k :| 0 <= k < |r| && r[k] == c;
      assert s[i + k] == c;
    }
  }

  /** `r` is the part of `s` between a prefix and a suffix made only of characters up to U+0020. */
  ghost predicate IsTrimmedInfix(s: string, r: string)
  {
    exists i, j :: (0 <= i <= j <= |s| && r == s[i..j]
      && forall k :: (0 <= k < i || j <= k < |s|) ==> IsTrimmable(s[k]))
  }

  /**
   `s.trim()`: `s` without its leading and trailing characters up to
   U+0020. The result is empty exactly when every character of `s` is such
   a character, and otherwise starts and ends with a kept character.
   `TrimIsInfix` states that it is the contiguous part of `s` between the
   removed prefix and the removed suffix.
   */
  function Trim(s: string): (r: string)
    ensures r == [] || (!IsTrimmable(r[0]) && !IsTrimmable(r[|r| - 1]))
    ensures r == [] <==> forall i :: 0 <= i < |s| ==> IsTrimmable(s[i])
    ensures forall c :: c in r ==> c in s
  {
    var t := TrimStart(s);
    var r := TrimEnd(t);
    TrimmedEnds(s, t, r);
    r
  }

  /** `trim()` removes characters at the ends only: the result is a contiguous part of `s`, and all that is cut off is up to U+0020. */
  lemma TrimIsInfix(s: string)
    ensures IsTrimmedInfix(s, Trim(s))
  {
    var t := TrimStart(s);
    var r := TrimEnd(t);
    TrimmedBetween(s, t, r);
    var i, j := |s| - |t|, |s| - |t| + |r|;
    assert 0 <= i <= j <= |s| && r == s[i..j];
  }

  // ------------------------------------------------------------- blankness

  /** `Character.isWhitespace`: the Unicode space separators other than the non-breaking ones, and the ASCII control whitespace. */
  predicate IsWhitespace(c: char)
  {
    || c == ' ' || c == '\t' || c == '\n' || c == '\U{000B}' || c == '\U{000C}' || c == '\r'
    || ('\U{001C}' <= c <= '\U{001F}')
    || c == '\U{1680}' || ('\U{2000}' <= c <= '\U{2006}') || ('\U{2008}' <= c <= '\U{200A}')
    || c == '\U{2028}' || c == '\U{2029}' || c == '\U{205F}' || c == '\U{3000}'
  }

  /** commons-lang `StringUtils.isNotBlank`: not null, and some character is not whitespace. */
  predicate IsNotBlank(s: Nullable<string>)
  {
    s.Present? && exists i :: 0 <= i < |s.value| && !IsWhitespace(s.value[i])
  }

  /**
   Hudson `Util.fixEmptyAndTrim`: null stays null, otherwise the trimmed
   string, or null when trimming leaves nothing.
   */
  function FixEmptyAndTrim(s: Nullable<string>): (r: Nullable<string>)
    ensures r.Null? <==> (s.Null? || forall i :: 0 <= i < |s.value| ==> IsTrimmable(s.value[i]))
    ensures r.Present? ==> r.value != "" && !IsTrimmable(r.value[0]) && !IsTrimmable(r.value[|r.value| - 1])
    ensures r.Present? ==> r.value == Trim(s.value)
  {
    match s
    case Null => Null
    case Present(v) => var t := Trim(v); if t == "" then Null else Present(t)
  }
}

=== FILE: paths.dfy ===
/**
 File paths as strings with `/` as the separator, standing for the
 `java.io.File` and `hudson.FilePath` objects the plugin builds. The
 child constructors `new File(dir, name)` and `new FilePath(dir, name)`
 both become `Join`; `getName()` and `getParentFile()` become `Name` and
 `Parent`. Java's normalisation of repeated or trailing separators is not
 modelled.
 */
module Paths {
  import opened JavaText

  type Path = string

  /** `new File(dir, name)`. */
  function Join(dir: Path, name: string): Path
  {
    dir + "/" + name
  }

  /**
   `getName()`: the longest suffix of `p` without a separator. When it is
   shorter than `p`, a separator stands right before it.
   */
  function Name(p: Path): (r: string)
    ensures '/' !in r
    ensures EndsWith(p, r)
    ensures |r| < |p| ==> p[|p| - |r| - 1] == '/'
    decreases |p|
  {
    if |p| == 0 || p[|p| - 1] == '/' then ""
    else
      var init := Name(p[..|p| - 1]);
      assert p[..|p| - 1][|p| - 1 - |init|..] == init;
      init + [p[|p| - 1]]
  }

  /** `getParentFile()`: everything before the separator that precedes `Name(p)`; empty when there is none. */
  function Parent(p: Path): Path
  {
    var n := Name(p);
    if |n| < |p| then p[..|p| - |n| - 1] else ""
  }

  /** A name without separators is recovered from the path it was joined into, and so is the directory. */
  lemma NameOfJoin(dir: Path, name: string)
    requires '/' !in name
    ensures Name(Join(dir, name)) == name
    ensures Parent(Join(dir, name)) == dir
  {
    var p := Join(dir, name);
    var r := Name(p);
    assert p[|dir|] == '/';
    assert |r| == |name|;
    assert r == p[|p| - |name|..] == name;
  }

  /** A path that contains a separator is its parent joined with its name. */
  lemma JoinParentName(p: Path)
    requires '/' in p
    ensures Join(Parent(p), Name(p)) == p
  {
    var n := Name(p);
    assert p == p[..|p| - |n| - 1] + [p[|p| - |n| - 1]] + p[|p| - |n|..];
  }

  /** A separator-free ending of a path is an ending of its name. */
  lemma NameKeepsEnding(p: Path, e: string)
    requires EndsWith(p, e) && '/' !in e
    ensures EndsWith(Name(p), e)
  {
    var n := Name(p);
    assert |n| >= |e|;
    assert n[|n| - |e|..] == p[|p| - |e|..];
  }

  /** Joining keeps the ending of the name. */
  lemma JoinKeepsEnding(dir: Path, name: string, e: string)
    requires EndsWith(name, e)
    ensures EndsWith(Join(dir, name), e)
  {
    assert Join(dir, name)[|Join(dir, name)| - |e|..] == name[|name| - |e|..];
  }

  /** Different names give different children of the same directory. */
  lemma JoinInjective(dir: Path, n1: string, n2: string)
    requires n1 != n2
    ensures Join(dir, n1) != Join(dir, n2)
  {
    assert Join(dir, n1)[|dir| + 1..] == n1;
    assert Join(dir, n2)[|dir| + 1..] == n2;
  }
}

=== FILE: report_generator.dfy ===
/**
 `IvyReportGenerator`: turns the per-configuration resolve reports
 `<resolveId>-<conf>.xml` into one HTML page and one SVG graph per
 configuration. Two XSLT passes (HTML and Graphviz `dot`) are followed by
 one run of the `dot` executable per configuration, after which the
 intermediate `.dot` files are deleted.

 The XSLT engine, the stylesheet resources and the `dot` process are
 collaborators given in `Tools`; the target and cache directories are
 parts of one `FileSystem`.
 */
module Generator {
  import opened JavaText
  import opened Paths
  import opened Files
  import DotDescriptor

  const HtmlStyleName: string := "ivy-report.xsl"
  const DotStyleName: string := "ivy-report-dot.xsl"
  const CssName: string := "ivy-report.css"

  /** The two XSLT passes and the extension of the files each writes. */
  datatype Format = Html | Dot
  {
    function Extension(): string
    {
      match this
      case Html => "html"
      case Dot => "dot"
    }
  }

  /** The parameters handed to the stylesheet: `confs` and `extension`. */
  datatype Params = Params(confs: string, extension: string)

  /** One application of a compiled stylesheet: its output, or the part written before a `TransformerException`. */
  datatype TransformRun = Transformed(output: Content) | TransformFailed(partial: Content)

  /**
   One run of the `dot` process: it ran and its standard output was
   captured (the exit code is never inspected), it could not be launched,
   or the wait for it was interrupted after part of its output was written.
   */
  datatype DotRun = Exited(stdout: Content) | LaunchFailed | Interrupted(partial: Content)

  /** Everything the generator uses but does not define. */
  datatype Tools = Tools(
    cssResource: Content,
    htmlStyleResource: Content,
    dotStyleResource: Content,
    compiles: Content -> bool,
    transform: (Content, Params, Content) -> TransformRun,
    mkdirs: Path -> bool,
    dot: (seq<string>, Content) -> DotRun,
    descriptor: Nullable<DotDescriptor.Descriptor>,
    isWindows: bool)

  /** The constructor arguments of `IvyReportGenerator`. */
  datatype Config = Config(resolveId: string, confs: seq<string>, resolutionCacheRoot: Path, targetDir: Path)

  // ------------------------------------------------------------------ naming

  /** `getConfsAsComaSeparatedString()`: the configurations with a comma between neighbours. */
  function ConfsAsCommaSeparated(confs: seq<string>): (r: string)
    ensures |confs| > 0 ==> confs[0] <= r && EndsWith(r, confs[|confs| - 1])
    ensures |confs| == 1 ==> r == confs[0]
    ensures |r| >= |confs| - 1
  {
    if |confs| == 0 then ""
    else if |confs| == 1 then confs[0]
    else
      var rest := ConfsAsCommaSeparated(confs[1..]);
      assert EndsWith(confs[0] + "," + rest, confs[|confs| - 1]) by {
        var last := confs[|confs| - 1];
        assert (confs[0] + "," + rest)[|confs[0] + "," + rest| - |last|..] == rest[|rest| - |last|..];
      }
      confs[0] + "," + rest
  }

  /** The file name every artifact of a configuration follows: `<resolveId>-<conf>.<ext>`. */
  function StyledName(resolveId: string, conf: string, ext: string): string
  {
    resolveId + "-" + conf + "." + ext
  }

  /** `getReportFile(conf)`: the resolve report of `conf` in the resolution cache. */
  function ReportFile(cfg: Config, conf: string): Path
  {
    Join(cfg.resolutionCacheRoot, StyledName(cfg.resolveId, conf, "xml"))
  }

  /** The file a pass writes for `conf` into the target directory. */
  function OutFile(cfg: Config, conf: string, f: Format): Path
  {
    Join(cfg.targetDir, StyledName(cfg.resolveId, conf, f.Extension()))
  }

  /** The files a pass writes, index-aligned with the configurations. */
  function OutFiles(cfg: Config, f: Format): (r: seq<Path>)
    ensures |r| == |cfg.confs|
    ensures forall i :: 0 <= i < |cfg.confs| ==> r[i] == OutFile(cfg, cfg.confs[i], f)
  {
    seq(|cfg.confs|, i requires 0 <= i < |cfg.confs| => OutFile(cfg, cfg.confs[i], f))
  }

  /** Where `getHtmlXslFile()` puts the HTML stylesheet: the resolution cache root. */
  function HtmlStyleFile(cfg: Config): Path
  {
    Join(cfg.resolutionCacheRoot, HtmlStyleName)
  }

  /** Where `getDotXslFile()` puts the Graphviz stylesheet: the resolution cache root. */
  function DotStyleFile(cfg: Config): Path
  {
    Join(cfg.resolutionCacheRoot, DotStyleName)
  }

  /** The CSS asset `genHtmlReport` copies next to the pages. */
  function CssFile(cfg: Config): Path
  {
    Join(cfg.targetDir, CssName)
  }

  /** The parameters both passes set on their transformer. */
  function StandardParams(cfg: Config): Params
  {
    Params(ConfsAsCommaSeparated(cfg.confs), "html")
  }

  // ---------------------------------------------------------------- styling

  /**
   The loop of `genStyled` from configuration `cs[0]` on: make sure the
   output directory exists, open the report, open the output and apply the
   stylesheet. A directory that cannot be created or a failing transform
   is a `BuildException`; a missing report is an `IOException`.
   */
  function StyleEach(cfg: Config, tools: Tools, style: Content, f: Format, cs: seq<string>, fs: FileSystem): (r: Step<()>)
    ensures r.outcome.Normal? ==>
      forall c :: c in cs ==>
        ReportFile(cfg, c) in fs.files && tools.transform(style, StandardParams(cfg), fs.files[ReportFile(cfg, c)]).Transformed?
    ensures r.outcome.Thrown? ==>
      r.outcome.exception.BuildException? ||
      exists c :: c in cs && r.outcome.exception == IOException(ReportFile(cfg, c)) && ReportFile(cfg, c) !in fs.files
    decreases |cs|
  {
    if |cs| == 0 then Step(Normal(()), fs)
    else
      var out := OutFile(cfg, cs[0], f);
      var dir := Parent(out);
      if !fs.Exists(dir) && !tools.mkdirs(dir) then
        Step(Thrown(BuildException("Unable to create directory: " + dir)), fs)
      else
        var fs1 := if fs.Exists(dir) then fs else fs.(dirs := fs.dirs + {dir});
        var report := ReportFile(cfg, cs[0]);
        if report !in fs1.files then Step(Thrown(IOException(report)), fs1)
        else
          match tools.transform(style, StandardParams(cfg), fs1.files[report])
          case TransformFailed(partial) => Step(Thrown(BuildException("transform failed")), fs1.Write(out, partial))
          case Transformed(o) =>
            var fs2 := fs1.Write(out, o);
            ReportIsNeverOutput(cfg, f, cs[0]);
            StyleEach(cfg, tools, style, f, cs[1..], fs2)
  }

  /**
   `genStyled(style, ext)`: compile the stylesheet read from `stylePath`
   and run it over every configuration; the result lists the written
   files index-aligned with the configurations.
   */
  function GenStyled(cfg: Config, tools: Tools, stylePath: Path, f: Format, fs: FileSystem): (r: Step<seq<Path>>)
    ensures r.outcome.Normal? ==>
      && |r.outcome.value| == |cfg.confs|
      && (forall i :: 0 <= i < |cfg.confs| ==> r.outcome.value[i] == OutFile(cfg, cfg.confs[i], f))
      && (forall i :: 0 <= i < |cfg.confs| ==> r.outcome.value[i] in r.fs.files)
  {
    if stylePath !in fs.files then Step(Thrown(IOException(stylePath)), fs)
    else if !tools.compiles(fs.files[stylePath]) then Step(Thrown(BuildException("stylesheet does not compile")), fs)
    else
      var run := StyleEach(cfg, tools, fs.files[stylePath], f, cfg.confs, fs);
      if run.outcome.Thrown? then Step(Thrown(run.outcome.exception), run.fs)
      else
        StyleEachWrites(cfg, tools, fs.files[stylePath], f, cfg.confs, fs);
        StyledOutputsKeys(cfg, tools, fs.files[stylePath], f, cfg.confs, fs.files);
        Step(Normal(OutFiles(cfg, f)), run.fs)
  }

  // ----------------------------------------------------------- stylesheets

  /** `getHtmlXslFile()` / `getDotXslFile()`: the stylesheet resource is copied into the resolution cache root, not the target directory. */
  function CopyStylesheet(cfg: Config, tools: Tools, f: Format, fs: FileSystem): (r: (Path, FileSystem))
    ensures Parent(r.0) == cfg.resolutionCacheRoot
    ensures r.0 in r.1.files
    ensures r.1.files[r.0] == (if f == Html then tools.htmlStyleResource else tools.dotStyleResource)
    ensures forall p :: p != r.0 && p in fs.files ==> p in r.1.files && r.1.files[p] == fs.files[p]
  {
    var style := if f == Html then HtmlStyleFile(cfg) else DotStyleFile(cfg);
    NameOfJoin(cfg.resolutionCacheRoot, if f == Html then HtmlStyleName else DotStyleName);
    (style, fs.Write(style, if f == Html then tools.htmlStyleResource else tools.dotStyleResource))
  }

  // ------------------------------------------------------------------- dot

  /** The SVG name `runDot` derives: `name.replace(".dot", ".svg")`. */
  function SvgName(name: string): string
  {
    Replace(name, ".dot", ".svg")
  }

  /** `runDot`'s output file: the input's directory, the input's name with every `.dot` replaced by `.svg`. */
  function SvgFile(input: Path): Path
  {
    Join(Parent(input), SvgName(Name(input)))
  }

  /**
   The executable `runDot` uses: the descriptor's choice when there is a
   descriptor, otherwise the platform default. A configured value that is
   not blank is used as it is; no descriptor, no value or a blank value
   gives the platform default. It is never blank.
   */
  function DotExe(tools: Tools): (r: string)
    ensures tools.descriptor.Null? ==> r == DotDescriptor.DefaultDotExe(tools.isWindows)
    ensures tools.descriptor.Present? && tools.descriptor.value.dotExe.Present?
      && (exists i :: 0 <= i < |tools.descriptor.value.dotExe.value| && !IsTrimmable(tools.descriptor.value.dotExe.value[i]))
      ==> r == tools.descriptor.value.dotExe.value
    ensures tools.descriptor.Present? && tools.descriptor.value.dotExe.Present?
      && (forall i :: 0 <= i < |tools.descriptor.value.dotExe.value| ==> IsTrimmable(tools.descriptor.value.dotExe.value[i]))
      ==> r == DotDescriptor.DefaultDotExe(tools.isWindows)
    ensures tools.descriptor.Present? && tools.descriptor.value.dotExe.Null? ==> r == DotDescriptor.DefaultDotExe(tools.isWindows)
    ensures r == DotDescriptor.DefaultDotExe(tools.isWindows)
      || (tools.descriptor.Present? && tools.descriptor.value.dotExe == Present(r))
    ensures exists i :: 0 <= i < |r| && !IsTrimmable(r[i])
  {
    assert !IsTrimmable(DotDescriptor.DefaultDotExe(tools.isWindows)[0]);
    match tools.descriptor
    case Present(d) => DotDescriptor.DotExeOrDefault(d, tools.isWindows)
    case Null => DotDescriptor.DefaultDotExe(tools.isWindows)
  }

  /** The command line of the `dot` process: the executable and `-Tsvg`. */
  function DotCommand(tools: Tools): seq<string>
  {
    [DotExe(tools), "-Tsvg"]
  }

  /**
   `runDot(input)`: open the input, create the output, feed the input to
   `dot` and capture its standard output into the output file. A launch
   failure is an `IOException`; an interrupted wait is rethrown. Either way
   the output file has already been created.
   */
  function RunDot(tools: Tools, input: Path, fs: FileSystem): (r: Step<Path>)
    ensures r.outcome.Normal? ==>
      && input in fs.files
      && r.outcome.value == SvgFile(input)
      && tools.dot(DotCommand(tools), fs.files[input]).Exited?
      && r.fs.files == fs.files[SvgFile(input) := tools.dot(DotCommand(tools), fs.files[input]).stdout]
    ensures input in fs.files ==> SvgFile(input) in r.fs.files
    ensures fs.files.Keys <= r.fs.files.Keys
    ensures r.outcome.Thrown? ==> r.outcome.exception.IOException? || r.outcome.exception.InterruptedException?
  {
    var output := SvgFile(input);
    if input !in fs.files then Step(Thrown(IOException(input)), fs)
    else
      var fs1 := fs.Write(output, "");
      match tools.dot(DotCommand(tools), fs.files[input])
      case Exited(o) => Step(Normal(output), fs1.Write(output, o))
      case LaunchFailed => Step(Thrown(IOException(DotExe(tools))), fs1)
      case Interrupted(partial) => Step(Thrown(InterruptedException), fs1.Write(output, partial))
  }

  /** `genSvgFiles(dotFiles)`: `runDot` on each file in order; the first exception ends the loop. */
  function GenSvgFiles(tools: Tools, dots: seq<Path>, fs: FileSystem): (r: Step<seq<Path>>)
    ensures r.outcome.Normal? ==>
      && |r.outcome.value| == |dots|
      && forall i :: 0 <= i < |dots| ==> r.outcome.value[i] == SvgFile(dots[i])
    ensures r.outcome.Thrown? ==> r.outcome.exception.IOException? || r.outcome.exception.InterruptedException?
    ensures fs.files.Keys <= r.fs.files.Keys
    decreases |dots|
  {
    if |dots| == 0 then Step(Normal([]), fs)
    else
      var first := RunDot(tools, dots[0], fs);
      if first.outcome.Thrown? then Step(Thrown(first.outcome.exception), first.fs)
      else
        var rest := GenSvgFiles(tools, dots[1..], first.fs);
        if rest.outcome.Thrown? then rest
        else Step(Normal([first.outcome.value] + rest.outcome.value), rest.fs)
  }

  // -------------------------------------------------------------- pipeline

  /**
   `genHtmlReport()`: the HTML pass, then the CSS resource copied into the
   target directory; the entry document is the first generated page, and an
   empty configuration list makes that lookup fail.
   */
  function GenHtmlReport(cfg: Config, tools: Tools, fs: FileSystem): (r: Step<Path>)
    ensures r.outcome.Normal? ==> |cfg.confs| > 0 && r.outcome.value == OutFile(cfg, cfg.confs[0], Html)
    ensures r.outcome.Normal? ==> r.outcome.value in r.fs.files && CssFile(cfg) in r.fs.files
    ensures |cfg.confs| == 0 ==> r.outcome.Thrown?
  {
    var (style, fs1) := CopyStylesheet(cfg, tools, Html, fs);
    var pages := GenStyled(cfg, tools, style, Html, fs1);
    if pages.outcome.Thrown? then Step(Thrown(pages.outcome.exception), pages.fs)
    else
      var fs2 := pages.fs.Write(CssFile(cfg), tools.cssResource);
      if |pages.outcome.value| == 0 then Step(Thrown(ArrayIndexOutOfBoundsException), fs2)
      else
        HtmlIsNotCss(cfg, cfg.confs[0]);
        Step(Normal(pages.outcome.value[0]), fs2)
  }

  /** `genDotFiles()`: the Graphviz pass. */
  function GenDotFiles(cfg: Config, tools: Tools, fs: FileSystem): (r: Step<seq<Path>>)
    ensures r.outcome.Normal? ==>
      && |r.outcome.value| == |cfg.confs|
      && forall i :: 0 <= i < |cfg.confs| ==> r.outcome.value[i] == OutFile(cfg, cfg.confs[i], Dot) && r.outcome.value[i] in r.fs.files
  {
    var (style, fs1) := CopyStylesheet(cfg, tools, Dot, fs);
    GenStyled(cfg, tools, style, Dot, fs1)
  }

  /**
   `generateReports()`: HTML pass, Graphviz pass, one `dot` run per
   Graphviz file, and only then the deletion of the Graphviz files; the
   result is the entry document.
   */
  function GenerateReports(cfg: Config, tools: Tools, fs: FileSystem): (r: Step<Path>)
    ensures r.outcome.Normal? ==> |cfg.confs| > 0 && r.outcome.value == OutFile(cfg, cfg.confs[0], Html)
    ensures |cfg.confs| == 0 ==> r.outcome.Thrown?
  {
    var html := GenHtmlReport(cfg, tools, fs);
    if html.outcome.Thrown? then Step(Thrown(html.outcome.exception), html.fs)
    else
      var dots := GenDotFiles(cfg, tools, html.fs);
      if dots.outcome.Thrown? then Step(Thrown(dots.outcome.exception), dots.fs)
      else
        var svgs := GenSvgFiles(tools, dots.outcome.value, dots.fs);
        if svgs.outcome.Thrown? then Step(Thrown(svgs.outcome.exception), svgs.fs)
        else Step(Normal(html.outcome.value), svgs.fs.DeleteAll(dots.outcome.value))
  }

  // ------------------------------------------------- reference definitions

  /** What the pass writes for `c`, read from the report as it is in `files`. */
  function StyledContent(cfg: Config, tools: Tools, style: Content, files: map<Path, Content>, c: string): Content
  {
    var report := ReportFile(cfg, c);
    if report !in files then ""
    else
      match tools.transform(style, StandardParams(cfg), files[report])
      case Transformed(o) => o
      case TransformFailed(partial) => partial
  }

  /** The files a successful pass over `cs` writes; a later configuration's entry wins over an earlier one. */
  function StyledOutputs(cfg: Config, tools: Tools, style: Content, f: Format, cs: seq<string>, files: map<Path, Content>): map<Path, Content>
    decreases |cs|
  {
    if |cs| == 0 then map[]
    else map[OutFile(cfg, cs[0], f) := StyledContent(cfg, tools, style, files, cs[0])] + StyledOutputs(cfg, tools, style, f, cs[1..], files)
  }

  // ----------------------------------------------------------------- facts

  /** A configuration's file name ends with its extension. */
  lemma StyledNameEnding(resolveId: string, conf: string, ext: string)
    ensures EndsWith(StyledName(resolveId, conf, ext), "." + ext)
  {
    assert StyledName(resolveId, conf, ext) == (resolveId + "-" + conf) + ("." + ext);
    EndsWithAppend(resolveId + "-" + conf, "." + ext);
  }

  /** Pages end in `tml`, Graphviz files in `dot`. */
  lemma OutFileKind(cfg: Config, c: string, f: Format)
    ensures EndsWith(OutFile(cfg, c, f), "." + f.Extension())
    ensures LastThree(OutFile(cfg, c, f)) == (if f == Html then "tml" else "dot")
  {
    var e := "." + f.Extension();
    assert EndsWith(OutFile(cfg, c, f), e) by {
      StyledNameEnding(cfg.resolveId, c, f.Extension());
      JoinKeepsEnding(cfg.targetDir, StyledName(cfg.resolveId, c, f.Extension()), e);
    }
    assert e[|e| - 3..] == (if f == Html then "tml" else "dot") by {
      if f == Html {
        assert e == ".html";
      } else {
        assert e == ".dot";
      }
    }
    LastThreeOfEnding(OutFile(cfg, c, f), e);
  }

  /** Reports end in `xml`. */
  lemma ReportFileKind(cfg: Config, c: string)
    ensures LastThree(ReportFile(cfg, c)) == "xml"
  {
    StyledNameEnding(cfg.resolveId, c, "xml");
    JoinKeepsEnding(cfg.resolutionCacheRoot, StyledName(cfg.resolveId, c, "xml"), ".xml");
    LastThreeOfEnding(ReportFile(cfg, c), ".xml");
  }

  /** The stylesheets end in `xsl`, the CSS asset in `css`. */
  lemma AssetKinds(cfg: Config)
    ensures LastThree(HtmlStyleFile(cfg)) == "xsl"
    ensures LastThree(DotStyleFile(cfg)) == "xsl"
    ensures LastThree(CssFile(cfg)) == "css"
  {
    EndsWithAppend(cfg.resolutionCacheRoot + "/", HtmlStyleName);
    LastThreeOfEnding(HtmlStyleFile(cfg), HtmlStyleName);
    EndsWithAppend(cfg.resolutionCacheRoot + "/", DotStyleName);
    LastThreeOfEnding(DotStyleFile(cfg), DotStyleName);
    EndsWithAppend(cfg.targetDir + "/", CssName);
    LastThreeOfEnding(CssFile(cfg), CssName);
  }

  /** The entry page and the style sheet asset are different files. */
  lemma HtmlIsNotCss(cfg: Config, c: string)
    ensures OutFile(cfg, c, Html) != CssFile(cfg)
  {
    OutFileKind(cfg, c, Html);
    AssetKinds(cfg);
  }

  lemma UpdateThenUnion<K, V>(m: map<K, V>, k: K, v: V, n: map<K, V>)
    ensures m[k := v] + n == m + (map[k := v] + n)
  {
  }

  /** A report (`.xml`) is never the output of a pass (`.html` or `.dot`). */
  lemma ReportIsNeverOutput(cfg: Config, f: Format, c: string)
    ensures forall c' :: ReportFile(cfg, c') != OutFile(cfg, c, f)
  {
    OutFileKind(cfg, c, f);
    forall c' ensures ReportFile(cfg, c') != OutFile(cfg, c, f) {
      ReportFileKind(cfg, c');
    }
  }

  /** Two configurations with the same output file are the same configuration. */
  lemma OutFileInjective(cfg: Config, c1: string, c2: string, f: Format)
    requires OutFile(cfg, c1, f) == OutFile(cfg, c2, f)
    ensures c1 == c2
  {
    var pre := cfg.targetDir + "/" + cfg.resolveId + "-";
    var suf := "." + f.Extension();
    assert OutFile(cfg, c1, f) == pre + c1 + suf;
    assert OutFile(cfg, c2, f) == pre + c2 + suf;
    assert |c1| == |c2|;
    assert c1 == (pre + c1 + suf)[|pre|..|pre| + |c1|];
  }

  /**
   A pass's outputs all carry the pass's extension, and two of them share
   a path exactly when their configurations are equal.
   */
  lemma OutFilesNamed(cfg: Config, f: Format)
    ensures var r := OutFiles(cfg, f);
      forall i :: 0 <= i < |r| ==> EndsWith(r[i], "." + f.Extension())
    ensures var r := OutFiles(cfg, f);
      forall i, j :: 0 <= i < |r| && 0 <= j < |r| ==> (r[i] == r[j] <==> cfg.confs[i] == cfg.confs[j])
  {
    var r := OutFiles(cfg, f);
    forall i | 0 <= i < |r| ensures EndsWith(r[i], "." + f.Extension()) {
      OutFileKind(cfg, cfg.confs[i], f);
    }
    forall i, j | 0 <= i < |r| && 0 <= j < |r| && r[i] == r[j] ensures cfg.confs[i] == cfg.confs[j] {
      OutFileInjective(cfg, cfg.confs[i], cfg.confs[j], f);
    }
  }

  /** Rewriting a file that is not a report does not change what a pass would write. */
  lemma {:induction false} StyledOutputsFrame(cfg: Config, tools: Tools, style: Content, f: Format, cs: seq<string>,
                                              files: map<Path, Content>, k: Path, v: Content)
    requires forall c :: ReportFile(cfg, c) != k
    ensures StyledOutputs(cfg, tools, style, f, cs, files[k := v]) == StyledOutputs(cfg, tools, style, f, cs, files)
    decreases |cs|
  {
    if |cs| > 0 {
      assert ReportFile(cfg, cs[0]) != k;
      assert StyledContent(cfg, tools, style, files[k := v], cs[0]) == StyledContent(cfg, tools, style, files, cs[0]);
      StyledOutputsFrame(cfg, tools, style, f, cs[1..], files, k, v);
    }
  }

  /** The written files are exactly the outputs of the configurations. */
  lemma {:induction false} StyledOutputsKeys(cfg: Config, tools: Tools, style: Content, f: Format, cs: seq<string>, files: map<Path, Content>)
    ensures StyledOutputs(cfg, tools, style, f, cs, files).Keys == set c | c in cs :: OutFile(cfg, c, f)
    decreases |cs|
  {
    if |cs| > 0 {
      StyledOutputsKeys(cfg, tools, style, f, cs[1..], files);
      assert forall c :: c in cs <==> c == cs[0] || c in cs[1..];
    }
  }

  /** Each configuration's output holds that configuration's transform, duplicates included. */
  lemma {:induction false} StyledOutputsValue(cfg: Config, tools: Tools, style: Content, f: Format, cs: seq<string>,
                                              files: map<Path, Content>, c: string)
    requires c in cs
    ensures OutFile(cfg, c, f) in StyledOutputs(cfg, tools, style, f, cs, files)
    ensures StyledOutputs(cfg, tools, style, f, cs, files)[OutFile(cfg, c, f)] == StyledContent(cfg, tools, style, files, c)
    decreases |cs|
  {
    var rest := StyledOutputs(cfg, tools, style, f, cs[1..], files);
    StyledOutputsKeys(cfg, tools, style, f, cs[1..], files);
    if c in cs[1..] {
      StyledOutputsValue(cfg, tools, style, f, cs[1..], files, c);
    } else {
      assert c == cs[0];
      if OutFile(cfg, c, f) in rest {
        var c' :| c' in cs[1..] && OutFile(cfg, c', f) == OutFile(cfg, c, f);
        OutFileInjective(cfg, c, c', f);
      }
    }
  }

  /**
   A successful pass leaves the file system as it was, overwritten with
   `StyledOutputs`: every configuration's output file holds the transform
   of its report, and nothing else changes.
   */
  lemma {:induction false} StyleEachWrites(cfg: Config, tools: Tools, style: Content, f: Format, cs: seq<string>, fs: FileSystem)
    ensures var r := StyleEach(cfg, tools, style, f, cs, fs);
      r.outcome.Normal? ==> r.fs.files == fs.files + StyledOutputs(cfg, tools, style, f, cs, fs.files)
    decreases |cs|
  {
    var r := StyleEach(cfg, tools, style, f, cs, fs);
    if |cs| > 0 && r.outcome.Normal? {
      var out := OutFile(cfg, cs[0], f);
      var dir := Parent(out);
      var fs1 := if fs.Exists(dir) then fs else fs.(dirs := fs.dirs + {dir});
      var report := ReportFile(cfg, cs[0]);
      var o := tools.transform(style, StandardParams(cfg), fs1.files[report]).output;
      var fs2 := fs1.Write(out, o);
      assert r == StyleEach(cfg, tools, style, f, cs[1..], fs2);
      StyleEachWrites(cfg, tools, style, f, cs[1..], fs2);
      ReportIsNeverOutput(cfg, f, cs[0]);
      StyledOutputsFrame(cfg, tools, style, f, cs[1..], fs.files, out, o);
      assert StyledContent(cfg, tools, style, fs.files, cs[0]) == o;
      UpdateThenUnion(fs.files, out, o, StyledOutputs(cfg, tools, style, f, cs[1..], fs.files));
    }
  }
}

=== FILE: report_generator_proofs.dfy ===
/**
 Properties of the report generator that relate several of its steps:
 how SVG files are named from Graphviz files, what the `dot` stage writes,
 and which files the target directory holds after a successful run.
 */
module GeneratorFacts {
  import opened JavaText
  import opened Paths
  import opened Files
  import opened Generator

  // ------------------------------------------------------------ SVG naming

  /** Renaming keeps the length, and every character is either kept or one of `s`, `v`, `g`. */
  lemma {:induction false} SvgNameCharacters(s: string)
    ensures |SvgName(s)| == |s|
    ensures forall i :: 0 <= i < |s| ==> SvgName(s)[i] == s[i] || SvgName(s)[i] in "svg"
    decreases |s|
  {
    if |s| > 0 {
      if ".dot" <= s {
        SvgNameCharacters(s[4..]);
        assert SvgName(s) == ".svg" + SvgName(s[4..]);
      } else {
        SvgNameCharacters(s[1..]);
        assert SvgName(s) == [s[0]] + SvgName(s[1..]);
      }
    }
  }

  /** No `.dot` is left after renaming: every occurrence is replaced. */
  lemma {:induction false} SvgNameHasNoDot(s: string)
    ensures !Occurs(SvgName(s), ".dot")
    decreases |s|
  {
    if |s| > 0 {
      if ".dot" <= s {
        var rest := SvgName(s[4..]);
        SvgNameHasNoDot(s[4..]);
        var t3 := "g" + rest;
        var t2 := "v" + t3;
        var t1 := "s" + t2;
        var r := "." + t1;
        assert SvgName(s) == ".svg" + rest == r;
        assert t3[1..] == rest && t2[1..] == t3 && t1[1..] == t2 && r[1..] == t1;
        assert t3[0] == 'g' && t2[0] == 'v' && t1[0] == 's' && r[1] == 's';
        assert !Occurs(t3, ".dot");
        assert !Occurs(t2, ".dot");
        assert !Occurs(t1, ".dot");
      } else {
        var rest := SvgName(s[1..]);
        SvgNameHasNoDot(s[1..]);
        var r := [s[0]] + rest;
        assert SvgName(s) == r;
        assert r[1..] == rest;
        SvgNameCharacters(s[1..]);
      }
    }
  }

  /** A trailing `.dot` always becomes `.svg`: no occurrence can straddle it. */
  lemma {:induction false} SvgNameOfDotEnding(x: string)
    ensures SvgName(x + ".dot") == SvgName(x) + ".svg"
    decreases |x|
  {
    var s := x + ".dot";
    if |x| == 0 {
      assert s == ".dot";
      assert s[4..] == "";
    } else if ".dot" <= x {
      assert ".dot" <= s;
      assert s[4..] == x[4..] + ".dot";
      SvgNameOfDotEnding(x[4..]);
    } else {
      assert !(".dot" <= s) by {
        if |x| >= 4 {
          assert s[..4] == x[..4];
        } else {
          assert s[|x|] == '.';
          assert ".dot"[|x|] != '.';
        }
      }
      assert s[1..] == x[1..] + ".dot";
      SvgNameOfDotEnding(x[1..]);
    }
  }

  /**
   The first `.dot` of a name becomes `.svg`, the text before it is kept
   and the text after it is renamed in turn. With `SvgNameWithoutDot` this
   determines the renaming of every name.
   */
  lemma {:induction false} SvgNameOfFirstDot(x: string, y: string)
    requires !Occurs(x, ".dot")
    ensures SvgName(x + ".dot" + y) == x + ".svg" + SvgName(y)
    decreases |x|
  {
    var s := x + ".dot" + y;
    if |x| == 0 {
      assert s == ".dot" + y && ".dot" <= s;
      assert s[4..] == y;
    } else {
      assert !(".dot" <= s) by {
        if |x| >= 4 {
          assert s[..4] == x[..4];
        } else {
          assert s[|x|] == '.';
          assert ".dot"[|x|] != '.';
        }
      }
      assert s[1..] == x[1..] + ".dot" + y;
      SvgNameOfFirstDot(x[1..], y);
      assert SvgName(s) == [x[0]] + SvgName(s[1..]);
      assert [x[0]] + x[1..] == x;
    }
  }

  /** A name without `.dot` is not renamed. */
  lemma {:induction false} SvgNameWithoutDot(x: string)
    requires !Occurs(x, ".dot")
    ensures SvgName(x) == x
    decreases |x|
  {
    if |x| > 0 {
      SvgNameWithoutDot(x[1..]);
      assert [x[0]] + x[1..] == x;
    }
  }

  /** The SVG file lies in the directory of its Graphviz file, under the renamed name. */
  lemma SvgFileSameDirectory(input: Path)
    ensures Parent(SvgFile(input)) == Parent(input)
    ensures Name(SvgFile(input)) == SvgName(Name(input))
  {
    SvgNameCharacters(Name(input));
    NameOfJoin(Parent(input), SvgName(Name(input)));
  }

  /** A path ending in `.dot` yields an SVG file ending in `.svg`. */
  lemma SvgFileEnding(input: Path)
    requires EndsWith(input, ".dot")
    ensures EndsWith(SvgFile(input), ".svg")
  {
    var n := Name(input);
    var x := n[..|n| - 4];
    assert n == x + ".dot" by {
      NameKeepsEnding(input, ".dot");
    }
    assert SvgName(n) == SvgName(x) + ".svg" by {
      SvgNameOfDotEnding(x);
    }
    EndsWithAppend(SvgName(x), ".svg");
    JoinKeepsEnding(Parent(input), SvgName(n), ".svg");
  }

  /**
   When neither the resolve id nor the configuration contains a separator
   or `.dot`, the SVG of a configuration is `<resolveId>-<conf>.svg` next
   to its Graphviz file.
   */
  lemma SvgFileOfConfiguration(cfg: Config, c: string)
    requires '/' !in cfg.resolveId && '/' !in c
    requires !Occurs(cfg.resolveId + "-" + c, ".dot")
    ensures SvgFile(OutFile(cfg, c, Dot)) == Join(cfg.targetDir, StyledName(cfg.resolveId, c, "svg"))
  {
    var x := cfg.resolveId + "-" + c;
    SvgDotOfName(cfg, c, x);
    SvgNameWithoutDot(x);
  }

  /** The SVG file of a configuration's Graphviz file, in terms of its base name `x = <resolveId>-<conf>`. */
  lemma SvgDotOfName(cfg: Config, c: string, x: string)
    requires '/' !in cfg.resolveId && '/' !in c
    requires x == cfg.resolveId + "-" + c
    ensures SvgFile(OutFile(cfg, c, Dot)) == Join(cfg.targetDir, SvgName(x) + ".svg")
    ensures StyledName(cfg.resolveId, c, "svg") == x + ".svg"
  {
    var n := x + ".dot";
    assert StyledName(cfg.resolveId, c, "dot") == n;
    assert OutFile(cfg, c, Dot) == Join(cfg.targetDir, n);
    NameOfJoin(cfg.targetDir, n);
    SvgNameOfDotEnding(x);
    assert SvgName(n) == SvgName(x) + ".svg";
  }

  /**
   Because the whole name is renamed, a resolve id containing `.dot` is
   renamed too: the graph of `x` under resolve id `a.dot` is `a.svg-x.svg`,
   not `a.dot-x.svg`.
   */
  lemma SvgFileRenamesResolveId(root: Path, target: Path)
    ensures var cfg := Config("a.dot", ["x"], root, target);
      SvgFile(OutFile(cfg, "x", Dot)) == Join(target, "a.svg-x.svg") != Join(target, StyledName("a.dot", "x", "svg"))
  {
    var cfg := Config("a.dot", ["x"], root, target);
    ExampleNames();
    SvgDotOfName(cfg, "x", "a.dot-x");
    SvgNameOfExample();
    JoinInjective(target, "a.svg-x.svg", StyledName("a.dot", "x", "svg"));
  }

  /** A step of `SvgFileRenamesResolveId`: the names of its example. */
  lemma ExampleNames()
    ensures "a.dot" + "-" + "x" == "a.dot-x"
    ensures StyledName("a.dot", "x", "svg") == "a.dot-x.svg" != "a.svg-x.svg"
  {
    assert StyledName("a.dot", "x", "svg")[2] == 'd';
  }

  /** A step of `SvgFileRenamesResolveId`: the replacement applied to its example. */
  lemma SvgNameOfExample()
    ensures SvgName("a.dot-x") + ".svg" == "a.svg-x.svg"
  {
    var x := "a.dot-x";
    var tail := "-x";
    assert x[1..] == ".dot" + tail;
    assert (".dot" + tail)[4..] == tail;
    assert SvgName(x) == "a" + SvgName(".dot" + tail);
    assert SvgName(".dot" + tail) == ".svg" + SvgName(tail);
    assert SvgName(tail) == tail by {
      assert tail[1..] == "x" && !Occurs("", ".dot") && !Occurs("x", ".dot") && !Occurs(tail, ".dot");
      SvgNameWithoutDot(tail);
    }
  }

  // -------------------------------------------------------------- dot stage

  /** What `dot` leaves in the SVG file of `d`, read from `d` as it is in `files`. */
  function RenderedContent(tools: Tools, files: map<Path, Content>, d: Path): Content
  {
    if d !in files then ""
    else
      match tools.dot(DotCommand(tools), files[d])
      case Exited(o) => o
      case LaunchFailed => ""
      case Interrupted(partial) => partial
  }

  /** The SVG files a successful `dot` stage over `dots` writes; later entries win. */
  function RenderedOutputs(tools: Tools, dots: seq<Path>, files: map<Path, Content>): map<Path, Content>
    decreases |dots|
  {
    if |dots| == 0 then map[]
    else map[SvgFile(dots[0]) := RenderedContent(tools, files, dots[0])] + RenderedOutputs(tools, dots[1..], files)
  }

  lemma {:induction false} RenderedOutputsFrame(tools: Tools, dots: seq<Path>, files: map<Path, Content>, k: Path, v: Content)
    requires k !in dots
    ensures RenderedOutputs(tools, dots, files[k := v]) == RenderedOutputs(tools, dots, files)
    decreases |dots|
  {
    if |dots| > 0 {
      assert dots[0] != k;
      assert RenderedContent(tools, files[k := v], dots[0]) == RenderedContent(tools, files, dots[0]);
      assert k !in dots[1..];
      RenderedOutputsFrame(tools, dots[1..], files, k, v);
    }
  }

  lemma {:induction false} RenderedOutputsKeys(tools: Tools, dots: seq<Path>, files: map<Path, Content>)
    ensures RenderedOutputs(tools, dots, files).Keys == set d | d in dots :: SvgFile(d)
    decreases |dots|
  {
    if |dots| > 0 {
      RenderedOutputsKeys(tools, dots[1..], files);
      assert forall d :: d in dots <==> d == dots[0] || d in dots[1..];
    }
  }

  /**
   A successful `dot` stage over Graphviz files (names ending in `.dot`)
   overwrites exactly the SVG files with the captured output of `dot`, all
   launched with the same command line; the Graphviz files themselves are
   untouched.
   */
  lemma {:induction false} GenSvgFilesWrites(tools: Tools, dots: seq<Path>, fs: FileSystem)
    requires forall i :: 0 <= i < |dots| ==> EndsWith(dots[i], ".dot")
    ensures var r := GenSvgFiles(tools, dots, fs);
      r.outcome.Normal? ==>
        && (forall d :: d in dots ==> d in fs.files && tools.dot(DotCommand(tools), fs.files[d]).Exited?)
        && r.fs.files == fs.files + RenderedOutputs(tools, dots, fs.files)
    decreases |dots|
  {
    var r := GenSvgFiles(tools, dots, fs);
    if |dots| > 0 && r.outcome.Normal? {
      var first := RunDot(tools, dots[0], fs);
      var out := SvgFile(dots[0]);
      var o := tools.dot(DotCommand(tools), fs.files[dots[0]]).stdout;
      assert first.fs.files == fs.files[out := o];
      assert r.fs == GenSvgFiles(tools, dots[1..], first.fs).fs;
      GenSvgFilesWrites(tools, dots[1..], first.fs);
      forall d | d in dots[1..] ensures d != out {
        SvgFileEnding(dots[0]);
        DifferentEndings(out, d, ".svg", ".dot");
      }
      RenderedOutputsFrame(tools, dots[1..], fs.files, out, o);
      assert RenderedContent(tools, fs.files, dots[0]) == o;
      UpdateThenUnion(fs.files, out, o, RenderedOutputs(tools, dots[1..], fs.files));
      forall d | d in dots ensures d in fs.files && tools.dot(DotCommand(tools), fs.files[d]).Exited? {
        if d != dots[0] {
          assert d in dots[1..];
          assert d in first.fs.files;
          assert d != out;
        }
      }
    }
  }

  /**
   If a `dot` run fails, the run throws with the files as the `dot` stage
   left them, so every Graphviz file written is still there.
   */
  lemma DotFilesKeptWhenDotFails(cfg: Config, tools: Tools, fs: FileSystem)
    ensures var html := GenHtmlReport(cfg, tools, fs);
      var dots := GenDotFiles(cfg, tools, html.fs);
      html.outcome.Normal? && dots.outcome.Normal? && GenSvgFiles(tools, dots.outcome.value, dots.fs).outcome.Thrown? ==>
        && GenerateReports(cfg, tools, fs).outcome.Thrown?
        && GenerateReports(cfg, tools, fs).fs == GenSvgFiles(tools, dots.outcome.value, dots.fs).fs
        && forall p :: p in dots.outcome.value ==> p in GenerateReports(cfg, tools, fs).fs.files
  {
    var html := GenHtmlReport(cfg, tools, fs);
    var dots := GenDotFiles(cfg, tools, html.fs);
    if html.outcome.Normal? && dots.outcome.Normal? {
      var svgs := GenSvgFiles(tools, dots.outcome.value, dots.fs);
      assert forall p :: p in dots.outcome.value ==> p in dots.fs.files;
      assert dots.fs.files.Keys <= svgs.fs.files.Keys;
    }
  }

  // ---------------------------------------------------------------- bundle

  /** The SVG file of a Graphviz file ends in `svg`. */
  lemma ImageKind(cfg: Config, c: string)
    ensures LastThree(SvgFile(OutFile(cfg, c, Dot))) == "svg"
  {
    OutFileKind(cfg, c, Dot);
    SvgFileEnding(OutFile(cfg, c, Dot));
    LastThreeOfEnding(SvgFile(OutFile(cfg, c, Dot)), ".svg");
  }

  /** Writing a file that is not a report does not change what a pass reads. */
  lemma StyledContentFrame(cfg: Config, tools: Tools, style: Content, files: map<Path, Content>, k: Path, v: Content, c: string)
    requires LastThree(k) != "xml"
    ensures StyledContent(cfg, tools, style, files[k := v], c) == StyledContent(cfg, tools, style, files, c)
  {
    ReportFileKind(cfg, c);
  }

  /** A successful HTML stage: the stylesheet copied, the pages written, then the CSS asset. */
  lemma GenHtmlReportWrites(cfg: Config, tools: Tools, fs: FileSystem)
    ensures var r := GenHtmlReport(cfg, tools, fs);
      var a := fs.files[HtmlStyleFile(cfg) := tools.htmlStyleResource];
      r.outcome.Normal? ==>
        r.fs.files == (a + StyledOutputs(cfg, tools, tools.htmlStyleResource, Html, cfg.confs, a))[CssFile(cfg) := tools.cssResource]
  {
    var r := GenHtmlReport(cfg, tools, fs);
    if r.outcome.Normal? {
      var (hs, fsA) := CopyStylesheet(cfg, tools, Html, fs);
      StyleEachWrites(cfg, tools, tools.htmlStyleResource, Html, cfg.confs, fsA);
    }
  }

  /** A successful Graphviz stage: the stylesheet copied, then one `.dot` file per configuration. */
  lemma GenDotFilesWrites(cfg: Config, tools: Tools, fs: FileSystem)
    ensures var r := GenDotFiles(cfg, tools, fs);
      var d := fs.files[DotStyleFile(cfg) := tools.dotStyleResource];
      r.outcome.Normal? ==>
        && r.outcome.value == OutFiles(cfg, Dot)
        && r.fs.files == d + StyledOutputs(cfg, tools, tools.dotStyleResource, Dot, cfg.confs, d)
  {
    var r := GenDotFiles(cfg, tools, fs);
    if r.outcome.Normal? {
      var (ds, fsD) := CopyStylesheet(cfg, tools, Dot, fs);
      StyleEachWrites(cfg, tools, tools.dotStyleResource, Dot, cfg.confs, fsD);
    }
  }

  /**
   The files after a successful run, as a reference definition: the HTML
   stylesheet, the pages, the CSS asset, the Graphviz stylesheet, the
   Graphviz files and the SVG files are written in that order, and then the
   Graphviz files are removed.
   */
  function AfterRun(cfg: Config, tools: Tools, files: map<Path, Content>): map<Path, Content>
  {
    var a := files[HtmlStyleFile(cfg) := tools.htmlStyleResource];
    var b := (a + StyledOutputs(cfg, tools, tools.htmlStyleResource, Html, cfg.confs, a))[CssFile(cfg) := tools.cssResource];
    var d := b[DotStyleFile(cfg) := tools.dotStyleResource];
    var e := d + StyledOutputs(cfg, tools, tools.dotStyleResource, Dot, cfg.confs, d);
    (e + RenderedOutputs(tools, OutFiles(cfg, Dot), e)) - (set p | p in OutFiles(cfg, Dot))
  }

  /** A successful run leaves exactly the files of `AfterRun`. */
  lemma GenerateReportsStages(cfg: Config, tools: Tools, fs: FileSystem)
    ensures var r := GenerateReports(cfg, tools, fs);
      r.outcome.Normal? ==> r.fs.files == AfterRun(cfg, tools, fs.files)
  {
    var r := GenerateReports(cfg, tools, fs);
    if r.outcome.Normal? {
      var a := fs.files[HtmlStyleFile(cfg) := tools.htmlStyleResource];
      var b := (a + StyledOutputs(cfg, tools, tools.htmlStyleResource, Html, cfg.confs, a))[CssFile(cfg) := tools.cssResource];
      var d := b[DotStyleFile(cfg) := tools.dotStyleResource];
      var e := d + StyledOutputs(cfg, tools, tools.dotStyleResource, Dot, cfg.confs, d);
      var html := GenHtmlReport(cfg, tools, fs);
      assert html.outcome.Normal? && html.fs.files == b by {
        GenHtmlReportWrites(cfg, tools, fs);
      }
      var dotRun := GenDotFiles(cfg, tools, html.fs);
      assert dotRun.outcome.Normal? && dotRun.outcome.value == OutFiles(cfg, Dot) && dotRun.fs.files == e by {
        GenDotFilesWrites(cfg, tools, html.fs);
      }
      var svgs := GenSvgFiles(tools, OutFiles(cfg, Dot), dotRun.fs);
      assert svgs.outcome.Normal? && svgs.fs.files == e + RenderedOutputs(tools, OutFiles(cfg, Dot), e) by {
        GraphEndings(cfg);
        GenSvgFilesWrites(tools, OutFiles(cfg, Dot), dotRun.fs);
      }
      assert r.fs == svgs.fs.DeleteAll(OutFiles(cfg, Dot));
    }
  }

  /** Every Graphviz file ends in `.dot`. */
  lemma GraphEndings(cfg: Config)
    ensures forall i :: 0 <= i < |OutFiles(cfg, Dot)| ==> EndsWith(OutFiles(cfg, Dot)[i], ".dot")
  {
    forall i | 0 <= i < |OutFiles(cfg, Dot)| ensures EndsWith(OutFiles(cfg, Dot)[i], ".dot") {
      OutFileKind(cfg, cfg.confs[i], Dot);
    }
  }

  function Pages(cfg: Config): set<Path>
  {
    set c | c in cfg.confs :: OutFile(cfg, c, Html)
  }

  function GraphFiles(cfg: Config): set<Path>
  {
    set c | c in cfg.confs :: OutFile(cfg, c, Dot)
  }

  function Images(cfg: Config): set<Path>
  {
    set c | c in cfg.confs :: SvgFile(OutFile(cfg, c, Dot))
  }

  /** The two stylesheets in the resolution cache and the CSS asset in the target directory. */
  function Assets(cfg: Config): set<Path>
  {
    {HtmlStyleFile(cfg), DotStyleFile(cfg), CssFile(cfg)}
  }

  lemma GraphsSet(cfg: Config)
    ensures (set p | p in OutFiles(cfg, Dot)) == GraphFiles(cfg)
  {
    var g := OutFiles(cfg, Dot);
    forall p | p in GraphFiles(cfg) ensures p in g {
      var c :| c in cfg.confs && p == OutFile(cfg, c, Dot);
      var i :| 0 <= i < |cfg.confs| && cfg.confs[i] == c;
      assert g[i] == p;
    }
    forall p | p in g ensures p in GraphFiles(cfg) {
      var i :| 0 <= i < |g| && g[i] == p;
      assert cfg.confs[i] in cfg.confs;
    }
  }

  lemma ImagesSet(cfg: Config)
    ensures (set d | d in OutFiles(cfg, Dot) :: SvgFile(d)) == Images(cfg)
  {
    var g := OutFiles(cfg, Dot);
    forall p | p in Images(cfg) ensures p in set d | d in g :: SvgFile(d) {
      var c :| c in cfg.confs && p == SvgFile(OutFile(cfg, c, Dot));
      var i :| 0 <= i < |cfg.confs| && cfg.confs[i] == c;
      assert g[i] == OutFile(cfg, c, Dot);
    }
    forall p | p in (set d | d in g :: SvgFile(d)) ensures p in Images(cfg) {
      var d :| d in g && p == SvgFile(d);
      var i :| 0 <= i < |g| && g[i] == d;
      assert cfg.confs[i] in cfg.confs;
    }
  }

  /** The keys of the file map after the pipeline's sequence of writes and the final removal. */
  lemma KeysOfStages<K, V>(m: map<K, V>, hs: K, x: V, soh: map<K, V>, css: K, y: V, ds: K, z: V, sod: map<K, V>,
                           ro: map<K, V>, gone: set<K>)
    ensures ((((m[hs := x] + soh)[css := y][ds := z] + sod) + ro) - gone).Keys
         == (m.Keys + {hs, css, ds} + soh.Keys + sod.Keys + ro.Keys) - gone
  {
  }

  lemma RemoveApart<K>(base: set<K>, assets: set<K>, pages: set<K>, graphs: set<K>, images: set<K>)
    requires assets !! graphs && pages !! graphs && images !! graphs
    ensures (base + assets + pages + graphs + images) - graphs == (base - graphs) + assets + pages + images
  {
  }

  /** No stylesheet, asset, page or SVG file is a Graphviz file. */
  lemma GraphFilesApart(cfg: Config)
    ensures Assets(cfg) !! GraphFiles(cfg)
    ensures Pages(cfg) !! GraphFiles(cfg)
    ensures Images(cfg) !! GraphFiles(cfg)
  {
    AssetKinds(cfg);
    forall p | p in GraphFiles(cfg) ensures p !in Pages(cfg) && p !in Images(cfg) {
      var c :| c in cfg.confs && p == OutFile(cfg, c, Dot);
      OutFileKind(cfg, c, Dot);
      forall c' ensures p != OutFile(cfg, c', Html) && p != SvgFile(OutFile(cfg, c', Dot)) {
        OutFileKind(cfg, c', Html);
        ImageKind(cfg, c');
      }
    }
  }

  /** Pages are neither assets nor SVG files. */
  lemma PagesApart(cfg: Config)
    ensures Pages(cfg) !! Assets(cfg)
    ensures Pages(cfg) !! Images(cfg)
  {
    AssetKinds(cfg);
    forall p | p in Pages(cfg) ensures p !in Assets(cfg) && p !in Images(cfg) {
      var c :| c in cfg.confs && p == OutFile(cfg, c, Html);
      OutFileKind(cfg, c, Html);
      forall c' ensures p != SvgFile(OutFile(cfg, c', Dot)) {
        ImageKind(cfg, c');
      }
    }
  }

  /** The three assets are different files, and none is an SVG file. */
  lemma AssetsApart(cfg: Config)
    ensures HtmlStyleFile(cfg) != DotStyleFile(cfg) && HtmlStyleFile(cfg) != CssFile(cfg) && DotStyleFile(cfg) != CssFile(cfg)
    ensures Assets(cfg) !! Images(cfg)
  {
    AssetKinds(cfg);
    assert HtmlStyleFile(cfg) != DotStyleFile(cfg) by {
      assert |HtmlStyleFile(cfg)| != |DotStyleFile(cfg)|;
    }
    forall c ensures SvgFile(OutFile(cfg, c, Dot)) !in Assets(cfg) {
      ImageKind(cfg, c);
    }
  }

  /** Which files exist after the stages: the ones before less the Graphviz files, plus the assets, pages and SVG files. */
  lemma AfterRunKeys(cfg: Config, tools: Tools, files: map<Path, Content>)
    ensures AfterRun(cfg, tools, files).Keys == (files.Keys - GraphFiles(cfg)) + Assets(cfg) + Pages(cfg) + Images(cfg)
  {
    var hs, css, ds := HtmlStyleFile(cfg), CssFile(cfg), DotStyleFile(cfg);
    var a := files[hs := tools.htmlStyleResource];
    var soh := StyledOutputs(cfg, tools, tools.htmlStyleResource, Html, cfg.confs, a);
    var d := (a + soh)[css := tools.cssResource][ds := tools.dotStyleResource];
    var sod := StyledOutputs(cfg, tools, tools.dotStyleResource, Dot, cfg.confs, d);
    var e := d + sod;
    var ro := RenderedOutputs(tools, OutFiles(cfg, Dot), e);
    var after := AfterRun(cfg, tools, files);
    assert after.Keys == (files.Keys + {hs, css, ds} + soh.Keys + sod.Keys + ro.Keys) - GraphFiles(cfg) by {
      GraphsSet(cfg);
      KeysOfStages(files, hs, tools.htmlStyleResource, soh, css, tools.cssResource, ds, tools.dotStyleResource, sod, ro, GraphFiles(cfg));
    }
    StyledOutputsKeys(cfg, tools, tools.htmlStyleResource, Html, cfg.confs, a);
    StyledOutputsKeys(cfg, tools, tools.dotStyleResource, Dot, cfg.confs, d);
    RenderedOutputsKeys(tools, OutFiles(cfg, Dot), e);
    ImagesSet(cfg);
    assert {hs, css, ds} == Assets(cfg);
    GraphFilesApart(cfg);
    RemoveApart(files.Keys, Assets(cfg), Pages(cfg), GraphFiles(cfg), Images(cfg));
  }

  /** What the stages leave in the pages, the assets, and every file they do not touch. */
  lemma AfterRunContents(cfg: Config, tools: Tools, files: map<Path, Content>)
    ensures var after := AfterRun(cfg, tools, files);
      && (forall c :: c in cfg.confs ==>
            OutFile(cfg, c, Html) in after && after[OutFile(cfg, c, Html)] == StyledContent(cfg, tools, tools.htmlStyleResource, files, c))
      && HtmlStyleFile(cfg) in after && after[HtmlStyleFile(cfg)] == tools.htmlStyleResource
      && DotStyleFile(cfg) in after && after[DotStyleFile(cfg)] == tools.dotStyleResource
      && CssFile(cfg) in after && after[CssFile(cfg)] == tools.cssResource
      && (forall p :: p in files && p !in Assets(cfg) && p !in Pages(cfg) && p !in GraphFiles(cfg) && p !in Images(cfg) ==>
            p in after && after[p] == files[p])
  {
    var hs, css, ds := HtmlStyleFile(cfg), CssFile(cfg), DotStyleFile(cfg);
    var a := files[hs := tools.htmlStyleResource];
    var soh := StyledOutputs(cfg, tools, tools.htmlStyleResource, Html, cfg.confs, a);
    var d := (a + soh)[css := tools.cssResource][ds := tools.dotStyleResource];
    var sod := StyledOutputs(cfg, tools, tools.dotStyleResource, Dot, cfg.confs, d);
    var e := d + sod;
    var ro := RenderedOutputs(tools, OutFiles(cfg, Dot), e);
    var after := AfterRun(cfg, tools, files);
    assert after == (e + ro) - GraphFiles(cfg) by {
      GraphsSet(cfg);
    }
    StyledOutputsKeys(cfg, tools, tools.htmlStyleResource, Html, cfg.confs, a);
    StyledOutputsKeys(cfg, tools, tools.dotStyleResource, Dot, cfg.confs, d);
    RenderedOutputsKeys(tools, OutFiles(cfg, Dot), e);
    ImagesSet(cfg);
    GraphFilesApart(cfg);
    PagesApart(cfg);
    AssetsApart(cfg);
    forall c | c in cfg.confs
      ensures OutFile(cfg, c, Html) in after && after[OutFile(cfg, c, Html)] == StyledContent(cfg, tools, tools.htmlStyleResource, files, c)
    {
      var k := OutFile(cfg, c, Html);
      assert k in Pages(cfg);
      StyledOutputsValue(cfg, tools, tools.htmlStyleResource, Html, cfg.confs, a, c);
      assert after[k] == soh[k];
      AssetKinds(cfg);
      StyledContentFrame(cfg, tools, tools.htmlStyleResource, files, hs, tools.htmlStyleResource, c);
    }
  }

  /**
   After a successful run the files are the ones before, less the
   Graphviz files, plus the stylesheets, the CSS asset, the pages and the
   SVG files.
   */
  lemma GenerateReportsFiles(cfg: Config, tools: Tools, fs: FileSystem)
    ensures var r := GenerateReports(cfg, tools, fs);
      r.outcome.Normal? ==> r.fs.files.Keys == (fs.files.Keys - GraphFiles(cfg)) + Assets(cfg) + Pages(cfg) + Images(cfg)
  {
    GenerateReportsStages(cfg, tools, fs);
    AfterRunKeys(cfg, tools, fs.files);
  }

  /**
   After a successful run each configuration's page holds the HTML
   stylesheet applied to its report as it was before the run, the assets
   hold their resources, and every other file is unchanged.
   */
  lemma GenerateReportsContents(cfg: Config, tools: Tools, fs: FileSystem)
    ensures var r := GenerateReports(cfg, tools, fs);
      r.outcome.Normal? ==>
        && (forall c :: c in cfg.confs ==>
              OutFile(cfg, c, Html) in r.fs.files
              && r.fs.files[OutFile(cfg, c, Html)] == StyledContent(cfg, tools, tools.htmlStyleResource, fs.files, c))
        && CssFile(cfg) in r.fs.files && r.fs.files[CssFile(cfg)] == tools.cssResource
        && (forall p :: p in fs.files && p !in Assets(cfg) && p !in Pages(cfg) && p !in GraphFiles(cfg) && p !in Images(cfg) ==>
              p in r.fs.files && r.fs.files[p] == fs.files[p])
  {
    GenerateReportsStages(cfg, tools, fs);
    AfterRunContents(cfg, tools, fs.files);
  }

  /**
   With no configurations the run cannot succeed: either the HTML
   stylesheet does not compile, or the empty list of pages has no first
   page. Neither failure is an `IOException`.
   */
  lemma NoConfigurationsFail(cfg: Config, tools: Tools, fs: FileSystem)
    requires |cfg.confs| == 0
    ensures GenerateReports(cfg, tools, fs).outcome.Thrown?
    ensures GenerateReports(cfg, tools, fs).outcome.exception.BuildException?
      || GenerateReports(cfg, tools, fs).outcome.exception == ArrayIndexOutOfBoundsException
  {
  }
}

=== FILE: report_publisher.dfy ===
/**
 `IvyReportPublisher`: the post-build step. Unless the build is worse than
 unstable it asks the workspace for Ivy's resolution cache root, copies the
 resolve report of every configured configuration into the build's
 `ivyreport` directory, runs the report generator there, and records the
 name of the generated HTML page as the build's action. An `IOException`
 anywhere in that sequence is reported and swallowed; other exceptions
 escape.

 The remote lookup of the cache root is given as its outcome; the cache
 and the build directory are parts of one `FileSystem`.
 */
module Publisher {
  import opened JavaText
  import opened Paths
  import opened Files
  import Generator
  import GeneratorFacts
  import CacheRoot

  /** `hudson.model.Result`, in the order of its ordinals. */
  datatype BuildResult = Success | Unstable | Failure | NotBuilt | Aborted
  {
    function Ordinal(): nat
    {
      match this
      case Success => 0
      case Unstable => 1
      case Failure => 2
      case NotBuilt => 3
      case Aborted => 4
    }

    /** `isWorseThan`: a higher ordinal. */
    predicate IsWorseThan(that: BuildResult)
    {
      Ordinal() > that.Ordinal()
    }
  }

  /** The two configured fields of the publisher. */
  datatype Publisher = Publisher(ivyReportConfigurations: string, resolveId: string)

  /** What `perform` uses of the build: its result so far and its directory on the master. */
  datatype Build = Build(result: BuildResult, rootDir: Path)

  /** The steps of `perform` that took place, in order. */
  datatype Stage = CacheRootLookup | ReportCopy | ReportGeneration | ActionAdded

  /**
   How `perform` ended: its return value or the exception it let escape,
   the file system afterwards, the stages it went through and the page
   name recorded in the build action, if one was added.
   */
  datatype Performed = Performed(outcome: Outcome<bool>, fs: FileSystem, stages: seq<Stage>, action: Nullable<string>)

  const ReportsDirName: string := "ivyreport"

  /** A build worse than unstable is skipped: exactly failed, not built and aborted builds. */
  lemma SkippedResults(r: BuildResult)
    ensures r.IsWorseThan(Unstable) <==> r in {Failure, NotBuilt, Aborted}
  {
  }

  // ---------------------------------------------------------- configuration

  /** `getConfs()`: the configured configurations, spaces removed, split at commas. */
  function GetConfs(p: Publisher): (r: seq<string>)
    ensures forall i :: 0 <= i < |r| ==> ' ' !in r[i] && ',' !in r[i]
    ensures forall i, c :: 0 <= i < |r| && c in r[i] ==> c in p.ivyReportConfigurations
  {
    Split(RemoveSpaces(p.ivyReportConfigurations), ',')
  }

  /** Joining configurations with commas and splitting again gives them back, when none is cut short by a trailing comma. */
  lemma {:induction false} FieldsOfJoined(cs: seq<string>)
    requires |cs| > 0 && forall i :: 0 <= i < |cs| ==> ',' !in cs[i]
    ensures Fields(Generator.ConfsAsCommaSeparated(cs), ',') == cs
    decreases |cs|
  {
    if |cs| == 1 {
      FieldsWithoutSeparator(cs[0], ',');
    } else {
      var rest := Generator.ConfsAsCommaSeparated(cs[1..]);
      assert Generator.ConfsAsCommaSeparated(cs) == cs[0] + [','] + rest;
      FieldsOfJoined(cs[1..]);
      FieldsAfterSeparator(cs[0], ',', rest);
      assert cs == [cs[0]] + cs[1..];
    }
  }

  /** The characters of the joined string are those of the configurations and the commas between them. */
  lemma {:induction false} JoinedCharacters(cs: seq<string>)
    ensures forall c :: c in Generator.ConfsAsCommaSeparated(cs) ==> c == ',' || exists i :: 0 <= i < |cs| && c in cs[i]
    ensures |cs| > 1 ==> ',' in Generator.ConfsAsCommaSeparated(cs)
    decreases |cs|
  {
    if |cs| > 1 {
      JoinedCharacters(cs[1..]);
      var s := Generator.ConfsAsCommaSeparated(cs);
      assert s[|cs[0]|] == ',';
      forall c | c in s ensures c == ',' || exists i :: 0 <= i < |cs| && c in cs[i] {
        if c in Generator.ConfsAsCommaSeparated(cs[1..]) && c != ',' {
          var i :| 0 <= i < |cs[1..]| && c in cs[1..][i];
          assert c in cs[i + 1];
        }
      }
    }
  }

  /**
   `getConfs` reads back the comma-separated form the generator passes to
   its stylesheets: configurations free of spaces and commas, the last one
   non-empty unless it is the only one, survive the round trip.
   */
  lemma GetConfsOfJoined(cs: seq<string>, resolveId: string)
    requires |cs| > 0
    requires forall i :: 0 <= i < |cs| ==> ' ' !in cs[i] && ',' !in cs[i]
    requires |cs| == 1 || cs[|cs| - 1] != ""
    ensures GetConfs(Publisher(Generator.ConfsAsCommaSeparated(cs), resolveId)) == cs
  {
    var s := Generator.ConfsAsCommaSeparated(cs);
    JoinedCharacters(cs);
    RemoveSpacesKeeps(s);
    if |cs| == 1 {
      assert s == cs[0];
    } else {
      FieldsOfJoined(cs);
    }
  }

  /** A space anywhere in the configuration string changes nothing: `getConfs` drops spaces before splitting. */
  lemma GetConfsIgnoresSpace(before: string, after: string, resolveId: string)
    ensures GetConfs(Publisher(before + " " + after, resolveId)) == GetConfs(Publisher(before + after, resolveId))
  {
    assert before + " " + after == before + (" " + after);
    RemoveSpacesAppend(before, " " + after);
    RemoveSpacesAppend(" ", after);
    assert RemoveSpaces(" ") == "" by {
      assert " " <= " " && " "[1..] == "";
    }
    RemoveSpacesAppend(before, after);
    assert RemoveSpaces(before + " " + after) == RemoveSpaces(before + after);
  }

  /**
   Any configuration string that is the comma-separated join of the
   configurations once its spaces are removed (`"a, b"` for `a` and `b`)
   yields those configurations, when none is cut short by a trailing comma.
   */
  lemma GetConfsOfSpacedJoin(s: string, cs: seq<string>, resolveId: string)
    requires |cs| > 0
    requires forall i :: 0 <= i < |cs| ==> ' ' !in cs[i] && ',' !in cs[i]
    requires |cs| == 1 || cs[|cs| - 1] != ""
    requires RemoveSpaces(s) == Generator.ConfsAsCommaSeparated(cs)
    ensures GetConfs(Publisher(s, resolveId)) == cs
  {
    var joined := Generator.ConfsAsCommaSeparated(cs);
    GetConfsOfJoined(cs, resolveId);
    JoinedCharacters(cs);
    RemoveSpacesKeeps(joined);
  }

  /** A configuration string of spaces and commas with at least one comma yields no configurations at all. */
  lemma OnlyCommasGiveNoConfs(p: Publisher)
    requires ',' in p.ivyReportConfigurations
    requires forall i :: 0 <= i < |p.ivyReportConfigurations| ==> p.ivyReportConfigurations[i] in {' ', ','}
    ensures GetConfs(p) == []
  {
    var s := RemoveSpaces(p.ivyReportConfigurations);
    assert ',' in s;
    assert forall i :: 0 <= i < |s| ==> s[i] == ',' by {
      forall i | 0 <= i < |s| ensures s[i] == ',' {
        assert s[i] in s;
      }
    }
    SplitOnlySeparators(s, ',');
  }

  /** Without a comma, a configuration string of spaces alone, the empty string included, yields one empty configuration name. */
  lemma OnlySpacesGiveEmptyConf(p: Publisher)
    requires forall i :: 0 <= i < |p.ivyReportConfigurations| ==> p.ivyReportConfigurations[i] == ' '
    ensures GetConfs(p) == [""]
  {
    var s := RemoveSpaces(p.ivyReportConfigurations);
    assert multiset(p.ivyReportConfigurations)[' ' := 0] == multiset{} by {
      forall c | c in multiset(p.ivyReportConfigurations) ensures c == ' ' {
        var i :| 0 <= i < |p.ivyReportConfigurations| && p.ivyReportConfigurations[i] == c;
      }
    }
    assert |multiset(s)| == 0;
  }

  // ---------------------------------------------------------------- copying

  /** `getConfigurationResolveReportInCache(root, conf)`: `<resolveId>-<conf>.xml` in the cache root. */
  function ReportInCache(root: Path, resolveId: string, conf: string): Path
  {
    Join(root, resolveId + "-" + conf + ".xml")
  }

  /** Where the copy of that report goes: the report's own name in the target directory. */
  function CopyTarget(root: Path, resolveId: string, conf: string, targetDir: Path): Path
  {
    Join(targetDir, Name(ReportInCache(root, resolveId, conf)))
  }

  /**
   `copyIvyReportFilesToMaster`: for each configuration in turn, a report
   that does not exist ends the copy with an `IOException`; otherwise it is
   copied under its own name into the target directory. A directory in
   place of the report fails the same way, since it cannot be read as a
   file.
   */
  function CopyReports(fs: FileSystem, root: Path, resolveId: string, confs: seq<string>, targetDir: Path): (r: Step<()>)
    ensures r.fs.dirs == fs.dirs
    ensures fs.files.Keys <= r.fs.files.Keys
    ensures r.outcome.Thrown? ==>
      exists i :: 0 <= i < |confs| && r.outcome.exception == IOException(ReportInCache(root, resolveId, confs[i]))
    decreases |confs|
  {
    if |confs| == 0 then Step(Normal(()), fs)
    else
      var report := ReportInCache(root, resolveId, confs[0]);
      if report !in fs.files then Step(Thrown(IOException(report)), fs)
      else
        var fs1 := fs.Write(CopyTarget(root, resolveId, confs[0], targetDir), fs.files[report]);
        var rest := CopyReports(fs1, root, resolveId, confs[1..], targetDir);
        assert rest.outcome.Thrown? ==> exists i :: 0 <= i < |confs| && rest.outcome.exception == IOException(ReportInCache(root, resolveId, confs[i])) by {
          if rest.outcome.Thrown? {
            var i :| 0 <= i < |confs[1..]| && rest.outcome.exception == IOException(ReportInCache(root, resolveId, confs[1..][i]));
            assert confs[1..][i] == confs[i + 1];
          }
        }
        rest
  }

  /** The cache and the target directory differ, and neither the resolve id nor a configuration contains a separator. */
  predicate Separated(root: Path, resolveId: string, confs: seq<string>, targetDir: Path)
  {
    root != targetDir && '/' !in resolveId && forall i :: 0 <= i < |confs| ==> '/' !in confs[i]
  }

  /** `p` is where the copy of some configuration's report goes. */
  predicate IsCopyTarget(p: Path, root: Path, resolveId: string, confs: seq<string>, targetDir: Path)
  {
    exists i :: 0 <= i < |confs| && p == CopyTarget(root, resolveId, confs[i], targetDir)
  }

  /** The report file name of a configuration without separators. */
  lemma ReportName(root: Path, resolveId: string, conf: string)
    requires '/' !in resolveId && '/' !in conf
    ensures '/' !in resolveId + "-" + conf + ".xml"
    ensures Name(ReportInCache(root, resolveId, conf)) == resolveId + "-" + conf + ".xml"
    ensures Parent(ReportInCache(root, resolveId, conf)) == root
  {
    assert '/' !in resolveId + "-" + conf + ".xml";
    NameOfJoin(root, resolveId + "-" + conf + ".xml");
  }

  /** Children of different directories differ. */
  lemma JoinApart(d1: Path, d2: Path, n1: string, n2: string)
    requires d1 != d2 && '/' !in n1 && '/' !in n2
    ensures Join(d1, n1) != Join(d2, n2)
  {
    NameOfJoin(d1, n1);
    NameOfJoin(d2, n2);
  }

  /** No copy lands on a report still to be read, and different configurations go to different copies. */
  lemma CopyTargets(root: Path, resolveId: string, c1: string, c2: string, targetDir: Path)
    requires root != targetDir && '/' !in resolveId && '/' !in c1 && '/' !in c2
    ensures CopyTarget(root, resolveId, c1, targetDir) != ReportInCache(root, resolveId, c2)
    ensures CopyTarget(root, resolveId, c1, targetDir) == CopyTarget(root, resolveId, c2, targetDir) ==> c1 == c2
  {
    ReportName(root, resolveId, c1);
    ReportName(root, resolveId, c2);
    JoinApart(targetDir, root, resolveId + "-" + c1 + ".xml", resolveId + "-" + c2 + ".xml");
    if CopyTarget(root, resolveId, c1, targetDir) == CopyTarget(root, resolveId, c2, targetDir) {
      var n1 := resolveId + "-" + c1 + ".xml";
      var n2 := resolveId + "-" + c2 + ".xml";
      NameOfJoin(targetDir, n1);
      NameOfJoin(targetDir, n2);
      assert n1 == n2;
      assert c1 == n1[|resolveId| + 1..|n1| - 4];
      assert c2 == n2[|resolveId| + 1..|n2| - 4];
    }
  }

  /** Copying to a target leaves every report in the cache as it was. */
  lemma SourcesUntouched(fs: FileSystem, root: Path, resolveId: string, c0: string, confs: seq<string>, targetDir: Path, v: Content)
    requires Separated(root, resolveId, confs, targetDir) && '/' !in c0
    ensures var fs1 := fs.Write(CopyTarget(root, resolveId, c0, targetDir), v);
      forall i :: 0 <= i < |confs| ==>
        && (ReportInCache(root, resolveId, confs[i]) in fs1.files <==> ReportInCache(root, resolveId, confs[i]) in fs.files)
        && (ReportInCache(root, resolveId, confs[i]) in fs.files ==>
              fs1.files[ReportInCache(root, resolveId, confs[i])] == fs.files[ReportInCache(root, resolveId, confs[i])])
  {
    forall i | 0 <= i < |confs|
      ensures CopyTarget(root, resolveId, c0, targetDir) != ReportInCache(root, resolveId, confs[i])
    {
      CopyTargets(root, resolveId, c0, confs[i], targetDir);
    }
  }

  /** With the cache apart from the target directory, the copy succeeds exactly when every report exists. */
  lemma {:induction false} CopyReportsSucceeds(fs: FileSystem, root: Path, resolveId: string, confs: seq<string>, targetDir: Path)
    requires Separated(root, resolveId, confs, targetDir)
    ensures CopyReports(fs, root, resolveId, confs, targetDir).outcome.Normal?
      <==> forall i :: 0 <= i < |confs| ==> ReportInCache(root, resolveId, confs[i]) in fs.files
    decreases |confs|
  {
    if |confs| > 0 {
      var report := ReportInCache(root, resolveId, confs[0]);
      if report in fs.files {
        var fs1 := fs.Write(CopyTarget(root, resolveId, confs[0], targetDir), fs.files[report]);
        var tail := confs[1..];
        assert Separated(root, resolveId, tail, targetDir);
        CopyReportsSucceeds(fs1, root, resolveId, tail, targetDir);
        SourcesUntouched(fs, root, resolveId, confs[0], confs, targetDir, fs.files[report]);
        assert CopyReports(fs, root, resolveId, confs, targetDir) == CopyReports(fs1, root, resolveId, tail, targetDir);
        assert (forall i :: 0 <= i < |confs| ==> ReportInCache(root, resolveId, confs[i]) in fs.files)
          <==> (forall i :: 0 <= i < |tail| ==> ReportInCache(root, resolveId, tail[i]) in fs1.files) by {
          assert forall i :: 0 <= i < |tail| ==> tail[i] == confs[i + 1];
        }
      }
    }
  }

  /** A failed copy names the first missing report: every report before it exists. */
  lemma {:induction false} CopyReportsNamesFirstMissing(fs: FileSystem, root: Path, resolveId: string, confs: seq<string>, targetDir: Path)
    requires Separated(root, resolveId, confs, targetDir)
    ensures var r := CopyReports(fs, root, resolveId, confs, targetDir);
      r.outcome.Thrown? ==>
        exists k :: (0 <= k < |confs|
          && r.outcome.exception == IOException(ReportInCache(root, resolveId, confs[k]))
          && ReportInCache(root, resolveId, confs[k]) !in fs.files
          && forall i :: 0 <= i < k ==> ReportInCache(root, resolveId, confs[i]) in fs.files)
    decreases |confs|
  {
    if |confs| > 0 {
      var report := ReportInCache(root, resolveId, confs[0]);
      if report in fs.files {
        var fs1 := fs.Write(CopyTarget(root, resolveId, confs[0], targetDir), fs.files[report]);
        var tail := confs[1..];
        assert Separated(root, resolveId, tail, targetDir);
        CopyReportsNamesFirstMissing(fs1, root, resolveId, tail, targetDir);
        var r := CopyReports(fs1, root, resolveId, tail, targetDir);
        assert CopyReports(fs, root, resolveId, confs, targetDir) == r;
        if r.outcome.Thrown? {
          var k :| 0 <= k < |tail| && r.outcome.exception == IOException(ReportInCache(root, resolveId, tail[k]))
            && ReportInCache(root, resolveId, tail[k]) !in fs1.files
            && forall i :: 0 <= i < k ==> ReportInCache(root, resolveId, tail[i]) in fs1.files;
          SourcesUntouched(fs, root, resolveId, confs[0], confs, targetDir, fs.files[report]);
          assert tail[k] == confs[k + 1];
          assert forall i :: 0 <= i < k + 1 ==> ReportInCache(root, resolveId, confs[i]) in fs.files by {
            forall i | 0 <= i < k + 1 ensures ReportInCache(root, resolveId, confs[i]) in fs.files {
              if i > 0 {
                assert confs[i] == tail[i - 1];
              }
            }
          }
          assert ReportInCache(root, resolveId, confs[k + 1]) !in fs.files;
        }
      }
    }
  }

  /**
   With the cache apart from the target directory, the copy succeeds
   exactly when every report exists; on failure the exception names the
   first missing report.
   */
  lemma CopyReportsFails(fs: FileSystem, root: Path, resolveId: string, confs: seq<string>, targetDir: Path)
    requires Separated(root, resolveId, confs, targetDir)
    ensures var r := CopyReports(fs, root, resolveId, confs, targetDir);
      && (r.outcome.Normal? <==> forall i :: 0 <= i < |confs| ==> ReportInCache(root, resolveId, confs[i]) in fs.files)
      && (r.outcome.Thrown? ==>
           exists k :: (0 <= k < |confs|
             && r.outcome.exception == IOException(ReportInCache(root, resolveId, confs[k]))
             && ReportInCache(root, resolveId, confs[k]) !in fs.files
             && forall i :: 0 <= i < k ==> ReportInCache(root, resolveId, confs[i]) in fs.files))
  {
    CopyReportsSucceeds(fs, root, resolveId, confs, targetDir);
    CopyReportsNamesFirstMissing(fs, root, resolveId, confs, targetDir);
  }

  /**
   The copy stops at the first missing report: it throws for that report
   and leaves the file system exactly as copying only the configurations
   before it would, so no later configuration is copied.
   */
  lemma {:induction false} CopyReportsStopsAtMissing(fs: FileSystem, root: Path, resolveId: string, confs: seq<string>, targetDir: Path, k: nat)
    requires Separated(root, resolveId, confs, targetDir)
    requires k < |confs| && ReportInCache(root, resolveId, confs[k]) !in fs.files
    requires forall i :: 0 <= i < k ==> ReportInCache(root, resolveId, confs[i]) in fs.files
    ensures var r := CopyReports(fs, root, resolveId, confs, targetDir);
      && r.outcome == Thrown(IOException(ReportInCache(root, resolveId, confs[k])))
      && r.fs == CopyReports(fs, root, resolveId, confs[..k], targetDir).fs
    decreases k
  {
    if k > 0 {
      var report := ReportInCache(root, resolveId, confs[0]);
      var fs1 := fs.Write(CopyTarget(root, resolveId, confs[0], targetDir), fs.files[report]);
      var tail := confs[1..];
      assert Separated(root, resolveId, tail, targetDir);
      SourcesUntouched(fs, root, resolveId, confs[0], confs, targetDir, fs.files[report]);
      assert tail[k - 1] == confs[k];
      assert ReportInCache(root, resolveId, tail[k - 1]) !in fs1.files;
      assert forall i :: 0 <= i < k - 1 ==> ReportInCache(root, resolveId, tail[i]) in fs1.files by {
        forall i | 0 <= i < k - 1 ensures ReportInCache(root, resolveId, tail[i]) in fs1.files {
          assert tail[i] == confs[i + 1];
        }
      }
      CopyReportsStopsAtMissing(fs1, root, resolveId, tail, targetDir, k - 1);
      assert CopyReports(fs, root, resolveId, confs, targetDir) == CopyReports(fs1, root, resolveId, tail, targetDir);
      var before := confs[..k];
      assert before[0] == confs[0] && before[1..] == tail[..k - 1];
      assert CopyReports(fs, root, resolveId, before, targetDir) == CopyReports(fs1, root, resolveId, tail[..k - 1], targetDir);
    }
  }

  /** Only the copy targets change: every other file keeps its presence and content. */
  lemma {:induction false} CopyReportsFrame(fs: FileSystem, root: Path, resolveId: string, confs: seq<string>, targetDir: Path, p: Path)
    requires !IsCopyTarget(p, root, resolveId, confs, targetDir)
    ensures var r := CopyReports(fs, root, resolveId, confs, targetDir);
      (p in r.fs.files <==> p in fs.files) && (p in fs.files ==> r.fs.files[p] == fs.files[p])
    decreases |confs|
  {
    if |confs| > 0 {
      var report := ReportInCache(root, resolveId, confs[0]);
      if report in fs.files {
        var t0 := CopyTarget(root, resolveId, confs[0], targetDir);
        assert p != t0;
        var tail := confs[1..];
        assert forall j :: 0 <= j < |tail| ==> tail[j] == confs[j + 1];
        CopyReportsFrame(fs.Write(t0, fs.files[report]), root, resolveId, tail, targetDir, p);
      }
    }
  }

  /** After a successful copy, each configuration's copy holds the content its report had. */
  lemma {:induction false} CopyReportsCopies(fs: FileSystem, root: Path, resolveId: string, confs: seq<string>, targetDir: Path)
    requires Separated(root, resolveId, confs, targetDir)
    requires forall i :: 0 <= i < |confs| ==> ReportInCache(root, resolveId, confs[i]) in fs.files
    ensures var r := CopyReports(fs, root, resolveId, confs, targetDir);
      r.outcome.Normal? && forall i :: 0 <= i < |confs| ==>
        && CopyTarget(root, resolveId, confs[i], targetDir) in r.fs.files
        && r.fs.files[CopyTarget(root, resolveId, confs[i], targetDir)] == fs.files[ReportInCache(root, resolveId, confs[i])]
    decreases |confs|
  {
    if |confs| > 0 {
      var report := ReportInCache(root, resolveId, confs[0]);
      var t0 := CopyTarget(root, resolveId, confs[0], targetDir);
      var fs1 := fs.Write(t0, fs.files[report]);
      var tail := confs[1..];
      assert Separated(root, resolveId, tail, targetDir);
      SourcesUntouched(fs, root, resolveId, confs[0], confs, targetDir, fs.files[report]);
      assert forall i :: 0 <= i < |tail| ==> tail[i] == confs[i + 1];
      CopyReportsCopies(fs1, root, resolveId, tail, targetDir);
      var r := CopyReports(fs1, root, resolveId, tail, targetDir);
      forall i | 0 <= i < |confs|
        ensures CopyTarget(root, resolveId, confs[i], targetDir) in r.fs.files
        ensures r.fs.files[CopyTarget(root, resolveId, confs[i], targetDir)] == fs.files[ReportInCache(root, resolveId, confs[i])]
      {
        if i > 0 {
          assert confs[i] == tail[i - 1];
        } else if IsCopyTarget(t0, root, resolveId, tail, targetDir) {
          var j :| 0 <= j < |tail| && t0 == CopyTarget(root, resolveId, tail[j], targetDir);
          CopyTargets(root, resolveId, confs[0], tail[j], targetDir);
          assert tail[j] == confs[0];
        } else {
          CopyReportsFrame(fs1, root, resolveId, tail, targetDir, t0);
        }
      }
    }
  }

  /** The copy of a report is the very file the generator later reads, when the build directory is its cache root. */
  lemma CopyIsGeneratorInput(root: Path, resolveId: string, confs: seq<string>, conf: string, dir: Path)
    requires '/' !in resolveId && '/' !in conf
    ensures CopyTarget(root, resolveId, conf, dir) == Generator.ReportFile(Generator.Config(resolveId, confs, dir, dir), conf)
  {
    ReportName(root, resolveId, conf);
    assert resolveId + "-" + conf + ".xml" == Generator.StyledName(resolveId, conf, "xml");
  }

  // ---------------------------------------------------------------- perform

  /** The answer of the remote lookup: anything it throws becomes a null root. */
  function RootOf(lookup: CacheRoot.CallOutcome): (r: Nullable<Path>)
    ensures r.Present? <==> lookup.Returned? && lookup.root.Present?
    ensures r.Present? ==> r == lookup.root
  {
    if lookup.Returned? then lookup.root else Null
  }

  /** `new File(build.getRootDir(), "ivyreport")`. */
  function ReportsDir(build: Build): Path
  {
    Join(build.rootDir, ReportsDirName)
  }

  /** The generator `perform` builds: the build's report directory is both its cache root and its target. */
  function GeneratorConfig(pub: Publisher, build: Build): Generator.Config
  {
    Generator.Config(pub.resolveId, GetConfs(pub), ReportsDir(build), ReportsDir(build))
  }

  /** The `catch (IOException e)` of `perform`: an `IOException` becomes a normal return, any other exception escapes. */
  function Caught(e: Exception, fs: FileSystem, stages: seq<Stage>): (r: Performed)
    ensures r.fs == fs && r.stages == stages && r.action.Null?
    ensures r.outcome.Normal? <==> e.IOException?
    ensures r.outcome.Normal? ==> r.outcome.value
    ensures r.outcome.Thrown? ==> r.outcome.exception == e
  {
    if e.IOException? then Performed(Normal(true), fs, stages, Null) else Performed(Thrown(e), fs, stages, Null)
  }

  /**
   `perform(build, launcher, listener)`. `lookup` is what asking the
   workspace for the resolution cache root produced.
   */
  function Perform(pub: Publisher, build: Build, lookup: CacheRoot.CallOutcome, tools: Generator.Tools, fs: FileSystem): Performed
  {
    if build.result.IsWorseThan(Unstable) then Performed(Normal(true), fs, [], Null)
    else
      var root := RootOf(lookup);
      if root.Null? then Performed(Normal(true), fs, [CacheRootLookup], Null)
      else
        var dir := ReportsDir(build);
        var fs1 := fs.(dirs := fs.dirs + {dir});
        var copy := CopyReports(fs1, root.value, pub.resolveId, GetConfs(pub), dir);
        if copy.outcome.Thrown? then Caught(copy.outcome.exception, copy.fs, [CacheRootLookup, ReportCopy])
        else
          var gen := Generator.GenerateReports(GeneratorConfig(pub, build), tools, copy.fs);
          if gen.outcome.Thrown? then Caught(gen.outcome.exception, gen.fs, [CacheRootLookup, ReportCopy, ReportGeneration])
          else
            Performed(Normal(true), gen.fs, [CacheRootLookup, ReportCopy, ReportGeneration, ActionAdded], Present(Name(gen.outcome.value)))
  }

  // ----------------------------------------------------------------- facts

  /** A build worse than unstable is left alone, and only such a build is. */
  lemma PerformSkips(pub: Publisher, build: Build, lookup: CacheRoot.CallOutcome, tools: Generator.Tools, fs: FileSystem)
    ensures var r := Perform(pub, build, lookup, tools, fs);
      (r.stages == [] <==> build.result.IsWorseThan(Unstable))
      && (r.stages == [] ==> r == Performed(Normal(true), fs, [], Null))
  {
  }

  /** Without a cache root nothing is copied or generated, and the step succeeds. */
  lemma PerformWithoutRoot(pub: Publisher, build: Build, lookup: CacheRoot.CallOutcome, tools: Generator.Tools, fs: FileSystem)
    requires !build.result.IsWorseThan(Unstable)
    requires !(lookup.Returned? && lookup.root.Present?)
    ensures Perform(pub, build, lookup, tools, fs) == Performed(Normal(true), fs, [CacheRootLookup], Null)
  {
  }

  /** The stages happen in order, each only after the previous one succeeded. */
  lemma PerformStages(pub: Publisher, build: Build, lookup: CacheRoot.CallOutcome, tools: Generator.Tools, fs: FileSystem)
    ensures var r := Perform(pub, build, lookup, tools, fs);
      r.stages <= [CacheRootLookup, ReportCopy, ReportGeneration, ActionAdded]
      && (ReportCopy in r.stages <==> !build.result.IsWorseThan(Unstable) && RootOf(lookup).Present?)
  {
  }

  /**
   `perform` never answers false and never lets an `IOException` escape;
   what escapes comes from the generator, after the copy succeeded.
   */
  lemma PerformOutcome(pub: Publisher, build: Build, lookup: CacheRoot.CallOutcome, tools: Generator.Tools, fs: FileSystem)
    ensures var r := Perform(pub, build, lookup, tools, fs);
      && (r.outcome.Normal? ==> r.outcome.value)
      && (r.outcome.Thrown? ==> !r.outcome.exception.IOException? && r.stages == [CacheRootLookup, ReportCopy, ReportGeneration])
  {
    var r := Perform(pub, build, lookup, tools, fs);
    if !build.result.IsWorseThan(Unstable) && RootOf(lookup).Present? {
      var dir := ReportsDir(build);
      var copy := CopyReports(fs.(dirs := fs.dirs + {dir}), RootOf(lookup).value, pub.resolveId, GetConfs(pub), dir);
      assert copy.outcome.Thrown? ==> copy.outcome.exception.IOException?;
    }
  }

  /** A build action is added exactly when the generator succeeded, and it records the name of the first page. */
  lemma PerformActionIsFirstPage(pub: Publisher, build: Build, lookup: CacheRoot.CallOutcome, tools: Generator.Tools, fs: FileSystem)
    ensures var r := Perform(pub, build, lookup, tools, fs);
      && (r.action.Present? <==> ActionAdded in r.stages)
      && (r.action.Present? ==>
            (|GetConfs(pub)| > 0 && r.action.value == Name(Generator.OutFile(GeneratorConfig(pub, build), GetConfs(pub)[0], Generator.Html))))
  {
  }

  /** For names without separators, the action names `<resolveId>-<first conf>.html`. */
  lemma PerformAction(pub: Publisher, build: Build, lookup: CacheRoot.CallOutcome, tools: Generator.Tools, fs: FileSystem)
    requires '/' !in pub.resolveId && '/' !in pub.ivyReportConfigurations
    ensures var r := Perform(pub, build, lookup, tools, fs);
      r.action.Present? ==> r.action.value == Generator.StyledName(pub.resolveId, GetConfs(pub)[0], "html")
  {
    PerformActionIsFirstPage(pub, build, lookup, tools, fs);
    if |GetConfs(pub)| > 0 {
      PageName(pub, build);
    }
  }

  /** The name of the first configuration's page. */
  lemma PageName(pub: Publisher, build: Build)
    requires '/' !in pub.resolveId && '/' !in pub.ivyReportConfigurations && |GetConfs(pub)| > 0
    ensures Name(Generator.OutFile(GeneratorConfig(pub, build), GetConfs(pub)[0], Generator.Html))
      == Generator.StyledName(pub.resolveId, GetConfs(pub)[0], "html")
  {
    var cs := GetConfs(pub);
    assert '/' !in cs[0];
    assert '/' !in Generator.StyledName(pub.resolveId, cs[0], "html");
    NameOfJoin(ReportsDir(build), Generator.StyledName(pub.resolveId, cs[0], "html"));
  }

  /**
   A missing resolve report ends the step before the generator runs: the
   build is not failed and gets no action. Copies made before the missing
   one stay in the build directory.
   */
  lemma PerformMissingReport(pub: Publisher, build: Build, lookup: CacheRoot.CallOutcome, tools: Generator.Tools, fs: FileSystem, i: nat)
    requires !build.result.IsWorseThan(Unstable) && RootOf(lookup).Present?
    requires Separated(RootOf(lookup).value, pub.resolveId, GetConfs(pub), ReportsDir(build))
    requires i < |GetConfs(pub)| && ReportInCache(RootOf(lookup).value, pub.resolveId, GetConfs(pub)[i]) !in fs.files
    ensures var r := Perform(pub, build, lookup, tools, fs);
      r.outcome == Normal(true) && r.stages == [CacheRootLookup, ReportCopy] && r.action.Null?
  {
    var dir := ReportsDir(build);
    CopyReportsFails(fs.(dirs := fs.dirs + {dir}), RootOf(lookup).value, pub.resolveId, GetConfs(pub), dir);
  }

  /**
   When every resolve report is in the cache, the generator runs, on a
   file system where each report it reads is the copy of the cached one.
   */
  lemma PerformFeedsGenerator(pub: Publisher, build: Build, lookup: CacheRoot.CallOutcome, tools: Generator.Tools, fs: FileSystem)
    requires !build.result.IsWorseThan(Unstable) && RootOf(lookup).Present?
    requires Separated(RootOf(lookup).value, pub.resolveId, GetConfs(pub), ReportsDir(build))
    requires forall i :: 0 <= i < |GetConfs(pub)| ==> ReportInCache(RootOf(lookup).value, pub.resolveId, GetConfs(pub)[i]) in fs.files
    ensures ReportGeneration in Perform(pub, build, lookup, tools, fs).stages
    ensures var dir := ReportsDir(build);
      var copied := CopyReports(fs.(dirs := fs.dirs + {dir}), RootOf(lookup).value, pub.resolveId, GetConfs(pub), dir).fs;
      forall i :: 0 <= i < |GetConfs(pub)| ==>
        && Generator.ReportFile(GeneratorConfig(pub, build), GetConfs(pub)[i]) in copied.files
        && copied.files[Generator.ReportFile(GeneratorConfig(pub, build), GetConfs(pub)[i])]
           == fs.files[ReportInCache(RootOf(lookup).value, pub.resolveId, GetConfs(pub)[i])]
  {
    var root := RootOf(lookup).value;
    var dir := ReportsDir(build);
    var cs := GetConfs(pub);
    CopyReportsCopies(fs.(dirs := fs.dirs + {dir}), root, pub.resolveId, cs, dir);
    forall i | 0 <= i < |cs|
      ensures CopyTarget(root, pub.resolveId, cs[i], dir) == Generator.ReportFile(GeneratorConfig(pub, build), cs[i])
    {
      CopyIsGeneratorInput(root, pub.resolveId, cs, cs[i], dir);
    }
  }

  /**
   A configuration string of spaces and commas alone, with a cache root in
   place, fails the build: the generator has no page to return and its
   exception is not an `IOException`.
   */
  lemma PerformOnlyCommas(pub: Publisher, build: Build, lookup: CacheRoot.CallOutcome, tools: Generator.Tools, fs: FileSystem)
    requires !build.result.IsWorseThan(Unstable) && RootOf(lookup).Present?
    requires ',' in pub.ivyReportConfigurations
    requires forall i :: 0 <= i < |pub.ivyReportConfigurations| ==> pub.ivyReportConfigurations[i] in {' ', ','}
    ensures Perform(pub, build, lookup, tools, fs).outcome.Thrown?
  {
    OnlyCommasGiveNoConfs(pub);
    var dir := ReportsDir(build);
    var copy := CopyReports(fs.(dirs := fs.dirs + {dir}), RootOf(lookup).value, pub.resolveId, GetConfs(pub), dir);
    GeneratorFacts.NoConfigurationsFail(GeneratorConfig(pub, build), tools, copy.fs);
  }

  /**
   Composed with the lookup on the agent: when the configured Ivy settings
   file is missing there, the lookup aborts, `perform` finds no cache root
   and copies nothing.
   */
  lemma PerformWhenSettingsMissing(pub: Publisher, build: Build, ctx: CacheRoot.BuildContext, fileExists: Path -> bool,
                                   loader: CacheRoot.Loader, tools: Generator.Tools, fs: FileSystem)
    requires !build.result.IsWorseThan(Unstable)
    requires ctx.settingsFile.Present? && !fileExists(Join(ctx.workspace, ctx.settingsFile.value))
    ensures Perform(pub, build, CacheRoot.Call(ctx, fileExists, loader), tools, fs) == Performed(Normal(true), fs, [CacheRootLookup], Null)
  {
    CacheRoot.MissingSettingsAborts(ctx, fileExists, loader);
  }
}

=== FILE: resolution_cache_root.dfy ===
/**
 `GetResolutionCacheRootCallable`: on the machine that built the project,
 locate the Ivy settings file and the settings property files in the
 workspace, load them into a fresh `IvySettings`, and answer the
 resolution cache root of those settings.

 The file system is reduced to an existence predicate, and `IvySettings`
 to a loader that sees the calls made on it in order: each call either
 succeeds or throws, and the cache root is whatever the loaded settings
 say.
 */
module CacheRoot {
  import opened JavaText
  import opened Paths

  /** The project settings captured when the callable is built. */
  datatype BuildContext = BuildContext(
    settingsFile: Nullable<string>,
    propertyFiles: Nullable<string>,
    branch: Nullable<string>,
    workspace: Path,
    env: map<string, string>)

  /** Why the lookup was aborted: the `AbortException` messages name the missing file. */
  datatype AbortReason = NoSuchSettingsFile(settings: Path) | NoSuchPropertyFile(property: Path)

  /** The outcome of the path checks, with the files whose existence was asked for, in order. */
  datatype Validation =
    | Abort(reason: AbortReason, checked: seq<Path>)
    | Valid(settings: Nullable<Path>, properties: seq<Path>, checked: seq<Path>)

  /** A call made on the `IvySettings` being built. */
  datatype SettingsCall =
    | CreateSettings(env: map<string, string>)
    | LoadProperties(properties: Path)
    | Load(settings: Path)
    | LoadDefault
    | SetDefaultBranch(branch: string)

  /**
   `getResolutionCacheManager().getResolutionCacheRoot()` on loaded
   settings: the root it answers, which may be null, or an exception it
   throws. The lookup happens outside the `try` of `getIvySettings`, so
   such an exception is not swallowed.
   */
  datatype RootLookup = Root(file: Nullable<Path>) | LookupThrows

  /**
   `IvySettings` from the outside: whether a call throws, given the calls
   already made, and the cache-root lookup on settings built by a
   sequence of calls.
   */
  datatype Loader = Loader(fails: (seq<SettingsCall>, SettingsCall) -> bool, cacheRootOf: seq<SettingsCall> -> RootLookup)

  /** The calls made before a failing one, or all of them. */
  datatype Run = Completed(trace: seq<SettingsCall>) | Failed(trace: seq<SettingsCall>, failing: SettingsCall)

  /** `getIvySettings`: aborted, no settings (a load failed and was logged), or the loaded settings. */
  datatype SettingsOutcome = Aborted(reason: AbortReason) | NoSettings(run: Run) | Settings(trace: seq<SettingsCall>)

  /**
   `call()`: the cache root or null, the `AbortException` it throws, or an
   unchecked exception escaping from the cache-root lookup.
   */
  datatype CallOutcome = Returned(root: Nullable<Path>) | Raised(reason: AbortReason) | Unchecked

  // ------------------------------------------------------------- locations

  /** `settingsLoc`: the settings file resolved against the workspace, when one is configured. */
  function SettingsLocation(ctx: BuildContext): (r: Nullable<Path>)
    ensures r.Null? <==> ctx.settingsFile.Null?
    ensures r.Present? && '/' !in ctx.settingsFile.value ==>
      Parent(r.value) == ctx.workspace && Name(r.value) == ctx.settingsFile.value
  {
    match ctx.settingsFile
    case Null => Null
    case Present(f) =>
      assert '/' !in f ==> Parent(Join(ctx.workspace, f)) == ctx.workspace && Name(Join(ctx.workspace, f)) == f by {
        if '/' !in f {
          NameOfJoin(ctx.workspace, f);
        }
      }
      Present(Join(ctx.workspace, f))
  }

  /** The workspace file of one entry of the property-file list: the entry trimmed. */
  function PropertyFile(ctx: BuildContext, entry: string): Path
  {
    Join(ctx.workspace, Trim(entry))
  }

  /**
   The property files to load: none when the configured list is null or
   blank, otherwise one per comma-separated entry, in order.
   */
  function PropertyFiles(ctx: BuildContext): (r: seq<Path>)
    ensures !IsNotBlank(ctx.propertyFiles) ==> r == []
  {
    if IsNotBlank(ctx.propertyFiles) then
      var entries := Split(ctx.propertyFiles.value, ',');
      seq(|entries|, i requires 0 <= i < |entries| => PropertyFile(ctx, entries[i]))
    else []
  }

  /** The index of the first path that does not exist, or `|ps|` when they all do. */
  function FirstMissing(ps: seq<Path>, fileExists: Path -> bool): (r: nat)
    ensures r <= |ps|
    ensures forall i :: 0 <= i < r ==> fileExists(ps[i])
    ensures r < |ps| ==> !fileExists(ps[r])
  {
    if |ps| == 0 then 0
    else if !fileExists(ps[0]) then 0
    else 1 + FirstMissing(ps[1..], fileExists)
  }

  /**
   The checks at the top of `getIvySettings`: a configured settings file
   must exist, then every property file must, in order; the first missing
   file aborts.
   */
  function Validate(ctx: BuildContext, fileExists: Path -> bool): (r: Validation)
  {
    var loc := SettingsLocation(ctx);
    if loc.Present? && !fileExists(loc.value) then Abort(NoSuchSettingsFile(loc.value), [loc.value])
    else
      var before := if loc.Present? then [loc.value] else [];
      var ps := PropertyFiles(ctx);
      var k := FirstMissing(ps, fileExists);
      if k < |ps| then Abort(NoSuchPropertyFile(ps[k]), before + ps[..k + 1])
      else Valid(loc, ps, before + ps)
  }

  // --------------------------------------------------------------- loading

  function LoadAll(ps: seq<Path>): (r: seq<SettingsCall>)
    ensures |r| == |ps|
    ensures forall i :: 0 <= i < |ps| ==> r[i] == LoadProperties(ps[i])
  {
    if |ps| == 0 then [] else [LoadProperties(ps[0])] + LoadAll(ps[1..])
  }

  /**
   The calls `getIvySettings` makes on a valid configuration: create the
   settings over the build's environment, load each property file, load
   the settings file or the defaults, and set the branch when one is
   configured.
   */
  function SettingsCalls(ctx: BuildContext, settings: Nullable<Path>, properties: seq<Path>): seq<SettingsCall>
  {
    [CreateSettings(ctx.env)] + LoadAll(properties)
    + [if settings.Present? then Load(settings.value) else LoadDefault]
    + (if ctx.branch.Present? then [SetDefaultBranch(ctx.branch.value)] else [])
  }

  /** Make the `pending` calls in order after `done`; the first that throws ends the run. */
  function Execute(loader: Loader, done: seq<SettingsCall>, pending: seq<SettingsCall>): (r: Run)
    ensures r.Completed? ==> r.trace == done + pending
    ensures r.Failed? ==> exists k :: 0 <= k < |pending| && r.trace == done + pending[..k] && r.failing == pending[k]
    ensures r.Failed? ==> loader.fails(r.trace, r.failing)
    decreases |pending|
  {
    if |pending| == 0 then Completed(done)
    else if loader.fails(done, pending[0]) then
      assert pending[..0] == [];
      Failed(done, pending[0])
    else
      var r := Execute(loader, done + [pending[0]], pending[1..]);
      if r.Failed? then
        var k :| 0 <= k < |pending| - 1 && r.trace == done + [pending[0]] + pending[1..][..k] && r.failing == pending[1..][k];
        assert done + [pending[0]] + pending[1..][..k] == done + pending[..k + 1];
        r
      else
        assert done + [pending[0]] + pending[1..] == done + pending;
        r
  }

  /** `getIvySettings`: validate the paths, then make the calls; a call that throws is logged and yields no settings. */
  function GetIvySettings(ctx: BuildContext, fileExists: Path -> bool, loader: Loader): SettingsOutcome
  {
    match Validate(ctx, fileExists)
    case Abort(reason, _) => Aborted(reason)
    case Valid(settings, properties, _) =>
      match Execute(loader, [], SettingsCalls(ctx, settings, properties))
      case Completed(trace) => Settings(trace)
      case Failed(trace, failing) => NoSettings(Failed(trace, failing))
  }

  /**
   `call()` with `getResolutionCacheRoot()`: null settings give a null
   root, an abort is thrown, and loaded settings answer their cache root,
   which is returned as it is, null included.
   */
  function Call(ctx: BuildContext, fileExists: Path -> bool, loader: Loader): CallOutcome
  {
    match GetIvySettings(ctx, fileExists, loader)
    case Aborted(reason) => Raised(reason)
    case NoSettings(_) => Returned(Null)
    case Settings(trace) =>
      match loader.cacheRootOf(trace)
      case Root(file) => Returned(file)
      case LookupThrows => Unchecked
  }

  // ----------------------------------------------------------------- facts

  /** A missing settings file aborts after one check, before any property file is looked at. */
  lemma MissingSettingsAborts(ctx: BuildContext, fileExists: Path -> bool, loader: Loader)
    requires ctx.settingsFile.Present? && !fileExists(Join(ctx.workspace, ctx.settingsFile.value))
    ensures Validate(ctx, fileExists) == Abort(NoSuchSettingsFile(Join(ctx.workspace, ctx.settingsFile.value)), [Join(ctx.workspace, ctx.settingsFile.value)])
    ensures Call(ctx, fileExists, loader) == Raised(NoSuchSettingsFile(Join(ctx.workspace, ctx.settingsFile.value)))
  {
  }

  /**
   With the settings file in place, the first missing property file
   aborts: the files after it are not checked and nothing is loaded.
   */
  lemma FirstMissingPropertyAborts(ctx: BuildContext, fileExists: Path -> bool, loader: Loader, k: nat)
    requires SettingsLocation(ctx).Null? || fileExists(SettingsLocation(ctx).value)
    requires k < |PropertyFiles(ctx)| && !fileExists(PropertyFiles(ctx)[k])
    requires forall i :: 0 <= i < k ==> fileExists(PropertyFiles(ctx)[i])
    ensures Validate(ctx, fileExists).Abort?
    ensures Validate(ctx, fileExists).reason == NoSuchPropertyFile(PropertyFiles(ctx)[k])
    ensures Validate(ctx, fileExists).checked
         == (if ctx.settingsFile.Present? then [SettingsLocation(ctx).value] else []) + PropertyFiles(ctx)[..k + 1]
    ensures Call(ctx, fileExists, loader) == Raised(NoSuchPropertyFile(PropertyFiles(ctx)[k]))
  {
    var ps := PropertyFiles(ctx);
    assert FirstMissing(ps, fileExists) == k;
  }

  /** The lookup aborts exactly when a configured settings file or a listed property file is missing. */
  lemma AbortsIffMissing(ctx: BuildContext, fileExists: Path -> bool)
    ensures Validate(ctx, fileExists).Abort? <==>
      (SettingsLocation(ctx).Present? && !fileExists(SettingsLocation(ctx).value))
      || (exists i :: 0 <= i < |PropertyFiles(ctx)| && !fileExists(PropertyFiles(ctx)[i]))
  {
    var ps := PropertyFiles(ctx);
    var k := FirstMissing(ps, fileExists);
    if k == |ps| {
      assert forall i :: 0 <= i < |ps| ==> fileExists(ps[i]);
    }
  }

  /** The calls made on a valid configuration, in order. */
  lemma CallsOrder(ctx: BuildContext, settings: Nullable<Path>, ps: seq<Path>)
    ensures var t := SettingsCalls(ctx, settings, ps);
      && |t| >= |ps| + 2
      && t[0] == CreateSettings(ctx.env)
      && (forall i :: 0 <= i < |ps| ==> t[1 + i] == LoadProperties(ps[i]))
      && t[1 + |ps|] == (if settings.Present? then Load(settings.value) else LoadDefault)
      && (ctx.branch.Present? ==> |t| == |ps| + 3 && t[2 + |ps|] == SetDefaultBranch(ctx.branch.value))
      && (ctx.branch.Null? ==> |t| == |ps| + 2)
  {
  }

  /** Only the last call can set a branch, and it is made only when a branch is configured. */
  lemma CallsSetBranch(ctx: BuildContext, settings: Nullable<Path>, ps: seq<Path>, b: string)
    ensures SetDefaultBranch(b) in SettingsCalls(ctx, settings, ps) <==> ctx.branch == Present(b)
  {
    var t := SettingsCalls(ctx, settings, ps);
    var n := |ps| + 2;
    CallsOrder(ctx, settings, ps);
    if SetDefaultBranch(b) in t {
      var i :| 0 <= i < |t| && t[i] == SetDefaultBranch(b);
      assert i == n;
    }
  }

  /** Loaded settings saw exactly the calls for the checked locations. */
  lemma SettingsTrace(ctx: BuildContext, fileExists: Path -> bool, loader: Loader)
    requires GetIvySettings(ctx, fileExists, loader).Settings?
    ensures GetIvySettings(ctx, fileExists, loader).trace == SettingsCalls(ctx, SettingsLocation(ctx), PropertyFiles(ctx))
  {
    var v := Validate(ctx, fileExists);
    assert v.Valid?;
    AbortsIffMissing(ctx, fileExists);
    assert v.settings == SettingsLocation(ctx) && v.properties == PropertyFiles(ctx);
  }

  /**
   When every call succeeds, the settings see, in this order: creation
   over the build environment, each property file in listed order, the
   settings file (or the defaults), and the branch when one is set.
   */
  lemma LoadOrder(ctx: BuildContext, fileExists: Path -> bool, loader: Loader)
    requires GetIvySettings(ctx, fileExists, loader).Settings?
    ensures var t := GetIvySettings(ctx, fileExists, loader).trace;
      var ps := PropertyFiles(ctx);
      && |t| >= |ps| + 2
      && t[0] == CreateSettings(ctx.env)
      && (forall i :: 0 <= i < |ps| ==> t[1 + i] == LoadProperties(ps[i]))
      && t[1 + |ps|] == (if ctx.settingsFile.Present? then Load(Join(ctx.workspace, ctx.settingsFile.value)) else LoadDefault)
      && (ctx.branch.Present? ==> |t| == |ps| + 3 && t[2 + |ps|] == SetDefaultBranch(ctx.branch.value))
      && (ctx.branch.Null? ==> |t| == |ps| + 2)
  {
    SettingsTrace(ctx, fileExists, loader);
    CallsOrder(ctx, SettingsLocation(ctx), PropertyFiles(ctx));
  }

  /** A branch is set only when one is configured, and then it is that branch. */
  lemma BranchOnlyWhenConfigured(ctx: BuildContext, fileExists: Path -> bool, loader: Loader, b: string)
    requires GetIvySettings(ctx, fileExists, loader).Settings?
    ensures SetDefaultBranch(b) in GetIvySettings(ctx, fileExists, loader).trace <==> ctx.branch == Present(b)
  {
    SettingsTrace(ctx, fileExists, loader);
    CallsSetBranch(ctx, SettingsLocation(ctx), PropertyFiles(ctx), b);
  }

  /** A failing call on the settings makes `call()` return null instead of throwing. */
  lemma LoadFailureGivesNull(ctx: BuildContext, fileExists: Path -> bool, loader: Loader)
    requires Validate(ctx, fileExists).Valid?
    requires Execute(loader, [], SettingsCalls(ctx, Validate(ctx, fileExists).settings, Validate(ctx, fileExists).properties)).Failed?
    ensures Call(ctx, fileExists, loader) == Returned(Null)
  {
  }

  /**
   `call()` throws an `AbortException` only for a missing file, returns
   null when a call on the settings failed or the loaded settings have no
   cache root, lets an exception of the lookup escape, and otherwise
   returns the loaded settings' cache root.
   */
  lemma CallOutcomes(ctx: BuildContext, fileExists: Path -> bool, loader: Loader)
    ensures Call(ctx, fileExists, loader).Raised? <==> Validate(ctx, fileExists).Abort?
    ensures Call(ctx, fileExists, loader).Raised? ==> Call(ctx, fileExists, loader).reason == Validate(ctx, fileExists).reason
    ensures Call(ctx, fileExists, loader) == Returned(Null) <==>
      GetIvySettings(ctx, fileExists, loader).NoSettings?
      || (GetIvySettings(ctx, fileExists, loader).Settings?
          && loader.cacheRootOf(GetIvySettings(ctx, fileExists, loader).trace) == Root(Null))
    ensures Call(ctx, fileExists, loader).Unchecked? <==>
      GetIvySettings(ctx, fileExists, loader).Settings?
      && loader.cacheRootOf(GetIvySettings(ctx, fileExists, loader).trace).LookupThrows?
    ensures forall p :: Call(ctx, fileExists, loader) == Returned(Present(p)) <==>
      GetIvySettings(ctx, fileExists, loader).Settings?
      && loader.cacheRootOf(GetIvySettings(ctx, fileExists, loader).trace) == Root(Present(p))
  {
  }

  /**
   Each property-file entry is trimmed and resolved in the workspace, so a
   blank entry (as in `"a.properties, ,b.properties"`) names the
   workspace directory itself rather than being skipped. Java's
   `new File(ws, "")` is `ws` itself; the model writes it `<ws>/`, because
   paths are not normalised.
   */
  lemma PropertyEntriesResolved(ctx: BuildContext, i: nat)
    requires IsNotBlank(ctx.propertyFiles)
    requires i < |Split(ctx.propertyFiles.value, ',')|
    ensures |PropertyFiles(ctx)| == |Split(ctx.propertyFiles.value, ',')|
    ensures var e := Split(ctx.propertyFiles.value, ',')[i];
      PropertyFiles(ctx)[i] == Join(ctx.workspace, Trim(e))
      && ((forall j :: 0 <= j < |e| ==> IsTrimmable(e[j])) ==> PropertyFiles(ctx)[i] == ctx.workspace + "/")
      && ('/' !in e ==> Parent(PropertyFiles(ctx)[i]) == ctx.workspace && Name(PropertyFiles(ctx)[i]) == Trim(e))
  {
    var e := Split(ctx.propertyFiles.value, ',')[i];
    if '/' !in e {
      NameOfJoin(ctx.workspace, Trim(e));
    }
  }
}
